=== FILE: README.md ===
# State-flow graph of a web crawler, in Dafny

This project models the in-memory state-flow graph that a crawler builds while it explores a
web application. The graph is a directed multigraph. Its vertices are application states, and
two states are the same vertex when their content fingerprints are equal, whatever their names.
Its edges are clickables: the events that moved the application from one state to another.
A clickable belongs to exactly one (source, target) pair. Several distinct clickables may join
the same two states.

The model is functional. A `Graph` is an immutable value holding four things: a map from
fingerprint to the stored name and guided flag, a map from clickable to its endpoints, the
state counter, and the fingerprint of the initial state. Each public operation of the graph
class is one sequential step. An insertion returns the new graph together with the value the
Java method returns.

Modules:

- `Results`: `Option` (where the Java code returns `null`) and `Result` (where the Java code or
  the graph library throws).
- `StateNames`: generated names (`state<N>`, `guided<N>`), Java's decimal rendering of `N`, and
  `NameIndex`, which reads `N` back out of such a name.
- `StateFlowGraph`: the data model, the constructor, deduplicating insertion of states and
  edges, renaming, and the store queries.
- `DeepStates`: the depth-first deep-state walk, keyed on state names.
- `GraphProperties`: lemmas that relate several calls.

Behaviour the model takes from the JGraphT `DirectedMultigraph` contract. JGraphT is not part
of this model; its documented behaviour is written out as follows:

- `addEdge` returns false when an equal clickable is already anywhere in the graph, even
  between other endpoints, because the edge map holds each clickable once.
- `addEdge` throws `IllegalArgumentException` for an endpoint that is not a vertex. This is
  `Failure(NoSuchVertex)` here.
- The `DirectedMultigraph` of the JGraphT 0.x line, which the code builds, permits loops as
  well as parallel edges. An edge from a state to itself is added like any other edge, and
  the deep-state walk then sees the state's own name among its outgoing names.
- `outgoingEdgesOf` and `incomingEdgesOf` throw for a state that is not a vertex. This is
  `Failure(NoSuchVertex)` here, and `getDeepStates` inherits it.

`Eventable.equals` and `StateVertex.equals` are not part of this model. A clickable is a small
datatype compared by value. A state is compared by `SameState`, that is, by fingerprint.

Points where the code is followed rather than its comments or a looser reading:

- For a duplicate, `addState` returns the stored equal copy, not `false` as its Javadoc says.
  For a new state it returns `null` (`None`). In the Java code the caller's object is the stored
  one, so the caller sees the renaming. Here the caller reads the stored copy from the
  returned graph.
- The new name's id is the number of states minus one, taken after the insertion. It is not
  the state counter. `getNewStateName` bumps the counter without inserting a state, so the
  counter can run ahead of the vertex count (`RunKeepsGraph`). A name it issues can then equal
  a name that renaming gives later (`IssuedNameMayRepeat`).
- A new state that is itself named `index` keeps that name. Names are guaranteed unique when the initial
  state is named `index`, every insertion renames and no inserted state is named `index`
  (`RunKeepsNamesUnique`). The
  deep-state walk marks states by name, so it depends on this.

The Javadoc of `getDeepStates` describes deep states as "states with no outgoing edges". The
code also reports a state whose outgoing states are all visited already, which is how the walk
stops on a cycle. The model follows the code: in the cycle A→B→A, the walk from A reports B.

## Model

| member | source | states |
|---|---|---|
| `StateFlowGraph.New` | core/src/main/java/com/crawljax/core/state/StateFlowGraph.java:160-179 | The new graph holds exactly the initial state and no edges, with the counter at 0. A state is initial iff it equals the one passed in. |
| `StateFlowGraph.AllStates` | core/src/main/java/com/crawljax/core/state/StateFlowGraph.java:382-389 | The snapshot holds exactly the stored copy of each vertex, and its size is the number of vertices. |
| `StateFlowGraph.AllEdges` | core/src/main/java/com/crawljax/core/state/StateFlowGraph.java:391-398 | The snapshot holds exactly the clickables in the graph. |
| `StateFlowGraph.GetStateInGraph` | core/src/main/java/com/crawljax/core/state/StateFlowGraph.java:400-419 | Finds a stored vertex iff one equals the argument. That stored copy equals the argument, and no other stored vertex does. |
| `StateFlowGraph.CorrectStateName` | core/src/main/java/com/crawljax/core/state/StateFlowGraph.java:241-252 | The vertex is renamed to `guided<k>`/`state<k>` (k = number of states − 1) unless it is named `index`. Nothing else in the graph changes. |
| `StateFlowGraph.AddState` | core/src/main/java/com/crawljax/core/state/StateFlowGraph.java:206-239 | A duplicate leaves the graph unchanged and returns the stored equal copy. A new state adds exactly one vertex, leaves the others and the edges alone, bumps the counter by one and returns null. It is renamed after \|vertices\| − 1 only when renaming is on and its name is not `index`. The invariant is kept. |
| `StateFlowGraph.AddStateCorrectingName` | core/src/main/java/com/crawljax/core/state/StateFlowGraph.java:186-204 | The one-argument overload returns null iff the state is new. A new state not named `index` gets a generated name whose id is the old number of vertices. |
| `StateFlowGraph.GetNewStateName` | core/src/main/java/com/crawljax/core/state/StateFlowGraph.java:514-524 | Bumps only the counter, and returns a `state<N>` name whose id is the bumped counter. |
| `StateFlowGraph.AddEdge` | core/src/main/java/com/crawljax/core/state/StateFlowGraph.java:254-287 | A clickable already between the two states, or anywhere in the graph, gives false and an unchanged graph. A missing endpoint gives the library's exception. A loop is an ordinary edge. Otherwise exactly one new parallel edge with those endpoints is added and the result is true. The invariant is kept. |
| `StateFlowGraph.OutgoingClickables` | core/src/main/java/com/crawljax/core/state/StateFlowGraph.java:300-310 | Exactly the clickables whose source is the state. Fails iff the state is not a vertex. |
| `StateFlowGraph.IncomingClickables` | core/src/main/java/com/crawljax/core/state/StateFlowGraph.java:312-322 | Exactly the clickables whose target is the state. Fails iff the state is not a vertex. |
| `StateFlowGraph.GetOutgoingStates` | core/src/main/java/com/crawljax/core/state/StateFlowGraph.java:324-339 | The loop over outgoing clickables yields exactly the stored states that one edge leads to, as given by the independent `Successors` definition. Fails iff the state is not a vertex. |
| `StateFlowGraph.TargetState` | core/src/main/java/com/crawljax/core/state/StateFlowGraph.java:341-348 | A clickable of the graph yields its stored target state. Any other clickable yields null. |
| `StateFlowGraph.CanGoTo` | core/src/main/java/com/crawljax/core/state/StateFlowGraph.java:350-366 | True iff some clickable joins the two states in either direction. `GraphProperties.CanGoToIffSuccessor` and `GraphProperties.CanGoToSymmetric` relate it to outgoing states and show it is symmetric. |
| `StateFlowGraph.IsInitialState` | core/src/main/java/com/crawljax/core/state/StateFlowGraph.java:544-546 | True iff the state equals the stored initial state, which is then the graph's copy of it. `GraphProperties.InitialStateFixed` shows this stays the constructor's argument. |
| `StateNames.MakeStateName` | core/src/main/java/com/crawljax/core/state/StateFlowGraph.java:526-542 | The generated name carries the id back out (`NameIndex`), is never `index`, and starts with `g` iff the state is guided. |
| `StateNames.DigitsValueOfNatToString` | core/src/main/java/com/crawljax/core/state/StateFlowGraph.java:535-542 | Reading back the decimal rendering that `"state" + id` appends gives the id again. |
| `StateNames.NatToStringInjective` | core/src/main/java/com/crawljax/core/state/StateFlowGraph.java:535-542 | Distinct ids give distinct decimal suffixes. |
| `StateNames.MakeStateNameInjective` | core/src/main/java/com/crawljax/core/state/StateFlowGraph.java:535-542 | Two generated names are equal only for the same id and guided flag. |
| `DeepStates.Cyclic` | core/src/main/java/com/crawljax/core/state/StateFlowGraph.java:469-480 | Counting the visited outgoing states and comparing with the set size is true iff every outgoing state's name is visited. |
| `DeepStates.MeasureDecreases` | core/src/main/java/com/crawljax/core/state/StateFlowGraph.java:460-463 | Entering an unvisited vertex name shrinks the set of unvisited names, so the walk ends on any finite graph, including cyclic ones. |
| `DeepStates.DeepFilterMembers` | core/src/main/java/com/crawljax/core/state/StateFlowGraph.java:452-458 | An entry of a walk is reported iff it passes the deep-state test against the names marked once it has been entered: no outgoing state, or every outgoing name marked. |
| `DeepStates.DeepFilterNames` | core/src/main/java/com/crawljax/core/state/StateFlowGraph.java:448-461 | If every entry's name was unmarked when it was entered, no reported name was marked before the walk and no two reported states share a name. |
| `DeepStates.Traverse` | core/src/main/java/com/crawljax/core/state/StateFlowGraph.java:448-467 | Entered only for an unvisited name, and terminates. The ghost `entered` records the walk in entry order. It starts at the given state. Each later entry is the stored copy of an outgoing state of an earlier entry that failed the deep test, and its name was unmarked when it was entered. Every entry between that parent and the child had finished, with all its outgoing names marked, so the parent is the top of the depth-first stack. Afterwards the visited names are exactly the earlier ones plus the entered names. The states appended are exactly the entries that pass the deep test against the names marked once they were entered, in entry order. Every entry's outgoing names end up visited. The start is reported, and the walk goes no further, exactly when it has no outgoing state or all its outgoing names are visited on entry. Reported states are vertices reachable from the start. |
| `DeepStates.WalkOn` | core/src/main/java/com/crawljax/core/state/StateFlowGraph.java:459-465 | The loop over the outgoing states of a state that failed the deep test. It enters at least one unvisited state and reports at least one. Its record starts at the state, is a depth-first walk in the same sense as for `Traverse`, and the visited names and reported states relate to it exactly as there. No outgoing name of the state is left unvisited. |
| `DeepStates.GetDeepStates` | core/src/main/java/com/crawljax/core/state/StateFlowGraph.java:434-446 | Fails iff the start is not a vertex. Otherwise it terminates with a non-empty list of vertices reachable from the start. The list is exactly the entries of the walk that passed the deep test when entered, and no two of them share a name. The start is in the list iff it has no outgoing state or its only outgoing name is its own, and then it is the whole list. On a graph with unique names, started from a stored state, every reachable state with no outgoing state is in the list. |
| `DeepStates.WalkCoversReachable` | core/src/main/java/com/crawljax/core/state/StateFlowGraph.java:459-465 | A walk of stored states whose entries' outgoing names are all among its own names contains every vertex reachable from its first entry, when names are unique. |
| `DeepStates.WholeWalkReportsLeaves` | core/src/main/java/com/crawljax/core/state/StateFlowGraph.java:452-453 | A finished walk from a stored state reports every reachable state with no outgoing state, when names are unique. |
| `DeepStates.DiamondDepthFirst` | core/src/main/java/com/crawljax/core/state/StateFlowGraph.java:459-465 | On A→B, A→C, B→D, C→D, the depth-first record A, B, D, C is a walk: C is entered from A once B has finished. |
| `DeepStates.DiamondDepthFirstReports` | core/src/main/java/com/crawljax/core/state/StateFlowGraph.java:452-458 | That walk reports D, then C: C is entered after D is marked, so all its outgoing names are visited and it counts as deep. |
| `DeepStates.DiamondBreadthFirst` | core/src/main/java/com/crawljax/core/state/StateFlowGraph.java:459-465 | On the same diamond, the breadth-first record A, B, C, D is not a walk, because B still has the unmarked outgoing name D when C is entered. |
| `GraphProperties.RunKeepsGraph` | core/src/main/java/com/crawljax/core/state/StateFlowGraph.java:202-287 | Any sequence of insertions keeps the invariant and the initial state. It never alters a stored vertex or edge. The counter grows by the new vertices plus the issued names. |
| `GraphProperties.InitialStateFixed` | core/src/main/java/com/crawljax/core/state/StateFlowGraph.java:544-546 | After construction and any later calls, exactly the states equal to the constructor's argument are initial, and that state stays stored unchanged. |
| `GraphProperties.InsertSameStateRepeatedly` | core/src/main/java/com/crawljax/core/state/StateFlowGraph.java:224-239 | Of several insertions of one new fingerprint, only the first adds it and returns null. The rest return the stored copy. Vertex count and counter grow by exactly one. |
| `GraphProperties.SuccessorsAfterAddEdge` | core/src/main/java/com/crawljax/core/state/StateFlowGraph.java:276-287 | A new edge s→t adds t to the outgoing states of s and changes no other state's outgoing states. |
| `GraphProperties.ParallelEdges` | core/src/main/java/com/crawljax/core/state/StateFlowGraph.java:331-339 | Two distinct clickables between the same states are both added and both leave the source. The target appears once among the source's outgoing states. |
| `GraphProperties.RepeatedEdge` | core/src/main/java/com/crawljax/core/state/StateFlowGraph.java:279-282 | Adding the same clickable between the same states again returns false. The edge count is unchanged. |
| `GraphProperties.CanGoToSymmetric` | core/src/main/java/com/crawljax/core/state/StateFlowGraph.java:360-366 | `canGoTo(a, b)` equals `canGoTo(b, a)`. |
| `GraphProperties.CanGoToIffSuccessor` | core/src/main/java/com/crawljax/core/state/StateFlowGraph.java:360-366 | `canGoTo(a, b)` holds iff b is an outgoing state of a or a is an outgoing state of b. |
| `GraphProperties.SingleEdgeReachability` | core/src/main/java/com/crawljax/core/state/StateFlowGraph.java:360-366 | With only an edge A→B between two different states, `canGoTo` holds both ways, while B has no outgoing state. |
| `GraphProperties.SingleLoopReachability` | core/src/main/java/com/crawljax/core/state/StateFlowGraph.java:324-366 | With only a loop at A, `canGoTo(A, A)` holds, A is its own only outgoing state, and no other state has one. |
| `GraphProperties.EdgeQueriesAgree` | core/src/main/java/com/crawljax/core/state/StateFlowGraph.java:308-348 | A clickable leaves s and enters t iff it is an edge s→t. An outgoing clickable's target is an outgoing state. |
| `GraphProperties.SuccessorsAtMostOutgoing` | core/src/main/java/com/crawljax/core/state/StateFlowGraph.java:331-339 | Parallel edges collapse: a state has no more outgoing states than outgoing clickables. |
| `GraphProperties.NewIsWellNamed` | core/src/main/java/com/crawljax/core/state/StateFlowGraph.java:160-179 | A graph built from a state named `index` meets the naming discipline. |
| `GraphProperties.AddStateKeepsNamesUnique` | core/src/main/java/com/crawljax/core/state/StateFlowGraph.java:241-252 | A renaming insertion of a state not named `index` keeps all names distinct, since the new id exceeds every id in use. |
| `GraphProperties.RunKeepsNamesUnique` | core/src/main/java/com/crawljax/core/state/StateFlowGraph.java:224-252 | From a graph whose initial state is named `index` and whose other names are generated ids below the vertex count, renaming insertions of states not named `index`, edges and issued names never give two stored states one name. The name-keyed walk relies on this. |
| `GraphProperties.IssuedNameMayRepeat` | core/src/main/java/com/crawljax/core/state/StateFlowGraph.java:514-524 | A name issued by `getNewStateName` can equal the name that renaming then gives a new state, because the two schemes count differently. |

## Left out

- The embedded graph database, its shutdown hook and the commented-out database setup: external I/O, partly dead code.
- `serializeStateVertex`, `deserializeStateVertex`, `addAnode`: Java object-stream serialization from the JDK, with swallowed exceptions. No round trip is stated.
- `getShortestPath` and `getAllPossiblePaths`: they delegate to JGraphT's Dijkstra and k-shortest-paths, which are not part of this model.
- `getMeanStateStringSize`: a floating-point mean, truncated to an int.
- `toString` and logging.
- StateFlowGraph.TargetState: keeps an edge's endpoints as fingerprints and answers with the stored copy of the target. JGraphT keeps the very objects passed to `addEdge`, so the two differ only when a caller passes an equal state whose name or guided flag differs from the stored one. They agree whenever callers pass the state that `addState` stored or returned. A clickable that is not in the graph gives `None` (a `null`), which is a modelling choice.
- StateFlowGraph.GetOutgoingStates: returns the stored copies of the targets, not the objects passed to `addEdge`, for the same reason as `TargetState`. The deep-state walk, which marks targets by name, inherits this.
- `synchronized`, `AtomicInteger`, `@GuardedBy`: every call is modelled as one atomic sequential step.
- The live views returned by `vertexSet()`/`edgeSet()` and the outgoing/incoming edge sets are modelled as value snapshots.
- Java `int` wrap-around of the state counter and of the name id: both are unbounded `nat`s here.
- A `null` argument and its `NullPointerException`: Dafny values are never null.
- State fields other than name, fingerprint and guided flag, such as URL, DOM and DOM size: no modelled operation reads them.
- The order in which a hash set yields its elements: the walk picks the next outgoing state by an unspecified choice, so the order of the deep-state list is not stated.

=== FILE: DeepStates.dfy ===
/**
 Deep-state discovery: a depth-first walk from a start state that marks states by NAME.
 A state is reported as deep when it has no outgoing states, or when every outgoing state
 has already been visited; the second case is what stops the walk on a cycle.  The order
 in which a state's outgoing states are tried is the iteration order of a hash set, so it
 is left open here (`:|`).
 */
module DeepStates {
  import opened Results
  import opened StateFlowGraph

  /** The names of all vertices: the keys the walk marks. */
  function Names(g: Graph): set<string> {
    set fp | fp in g.vertices :: g.vertices[fp].name
  }

  /** The names of the states one edge away from `fp`. */
  function SuccessorNames(g: Graph, fp: Fingerprint): set<string> {
    set t | t in Successors(g, fp) :: g.vertices[t].name
  }

  /** `p` is a non-empty walk along edges of `g`. */
  ghost predicate IsPath(g: Graph, p: seq<Fingerprint>) {
    && |p| >= 1
    && forall i :: 0 <= i < |p| - 1 ==> ContainsEdge(g, p[i], p[i + 1])
  }

  /** Some walk leads from `a` to `b` (in zero or more steps). */
  ghost predicate Reaches(g: Graph, a: Fingerprint, b: Fingerprint) {
    exists p :: IsPath(g, p) && p[0] == a && p[|p| - 1] == b
  }

  lemma ReachesSelf(g: Graph, a: Fingerprint)
    ensures Reaches(g, a, a)
  {
    assert IsPath(g, [a]);
  }

  /** An edge in front of a walk is a walk. */
  lemma ReachesStep(g: Graph, a: Fingerprint, b: Fingerprint, c: Fingerprint)
    requires ContainsEdge(g, a, b) && Reaches(g, b, c)
    ensures Reaches(g, a, c)
  {
    var p :| IsPath(g, p) && p[0] == b && p[|p| - 1] == c;
    var q := [a] + p;
    assert forall i :: 1 <= i < |q| - 1 ==> q[i] == p[i - 1] && q[i + 1] == p[i];
    assert IsPath(g, q);
  }

  /**
   The walk's test for a deep state at `fp`, against the names in `visited`: it has no
   outgoing state, or every outgoing state's name is already marked.
   */
  predicate IsDeep(g: Graph, fp: Fingerprint, visited: set<string>) {
    Successors(g, fp) == {} || SuccessorNames(g, fp) <= visited
  }

  /** `d` is a marked vertex that meets the deep-state test against `visited`. */
  predicate Classified(g: Graph, d: StateVertex, visited: set<string>) {
    && d.fingerprint in g.vertices
    && d.name in visited
    && IsDeep(g, d.fingerprint, visited)
  }

  /** The names carried by the states of `s`. */
  function NamesOf(s: seq<StateVertex>): set<string> {
    set e | e in s :: e.name
  }

  lemma NamesOfAppend(a: seq<StateVertex>, b: seq<StateVertex>)
    ensures NamesOf(a + b) == NamesOf(a) + NamesOf(b)
  {
    assert forall e :: e in a + b <==> e in a || e in b;
  }

  /** The names of the first `k + 1` entries: the first entry's, then those of the next `k`. */
  lemma NamesOfPrefix(s: seq<StateVertex>, k: int)
    requires 0 <= k < |s|
    ensures NamesOf(s[..k + 1]) == {s[0].name} + NamesOf(s[1..][..k])
    ensures k == 0 ==> NamesOf(s[..1]) == {s[0].name}
  {
    assert s[..k + 1] == [s[0]] + s[1..][..k];
    NamesOfAppend([s[0]], s[1..][..k]);
    assert NamesOf([s[0]]) == {s[0].name};
    if k == 0 {
      assert NamesOf(s[1..][..0]) == {};
    }
  }

  lemma NamesOfPrefixWithin(s: seq<StateVertex>, n: int)
    requires 0 <= n <= |s|
    ensures NamesOf(s[..n]) <= NamesOf(s)
  {
    assert forall e :: e in s[..n] ==> e in s;
  }

  /** A walk of one entry: it marks that entry's name and reports it iff it passes the deep-state test. */
  lemma SingleEntry(g: Graph, marked: set<string>, x: StateVertex)
    ensures NamesOf([x]) == {x.name} && [x][..0] == []
    ensures DeepFilter(g, marked, [x]) == if IsDeep(g, x.fingerprint, marked + {x.name}) then [x] else []
  {
    assert [x][1..] == [];
  }

  /**
   Entry `j` of a walk is one the walk went on from to reach entry `k`: entry `k` is an
   outgoing state of entry `j`, entry `j` failed the deep-state test when it was entered,
   and every entry between them had finished, with all its outgoing names marked, before
   entry `k` was entered.  So entry `j` is the top of the depth-first stack at that point.
   */
  predicate EntersFrom(g: Graph, marked: set<string>, entered: seq<StateVertex>, j: int, k: int)
    requires 0 <= j < k < |entered|
  {
    && entered[k].fingerprint in Successors(g, entered[j].fingerprint)
    && !IsDeep(g, entered[j].fingerprint, marked + NamesOf(entered[..j + 1]))
    && (forall i :: j < i < k ==> SuccessorNames(g, entered[i].fingerprint) <= marked + NamesOf(entered[..k]))
  }

  /**
   `entered` lists, in order, the states a walk entered when the names in `marked` were
   already marked before it began.  Each is a vertex whose name was unmarked when it was
   entered; each after the first is the stored copy of an outgoing state of an earlier
   entry that failed the deep-state test.
   */
  ghost predicate IsWalk(g: Graph, marked: set<string>, entered: seq<StateVertex>) {
    && |entered| >= 1
    && (forall k :: 0 <= k < |entered| ==> entered[k].fingerprint in g.vertices)
    && (forall k :: 0 <= k < |entered| ==> UnmarkedOnEntry(marked, entered, k))
    && (forall k :: 1 <= k < |entered| ==> entered[k] == StateOf(g, entered[k].fingerprint))
    && (forall k :: 1 <= k < |entered| ==> EnteredFromEarlier(g, marked, entered, k))
  }

  /** Entry `k` of the walk carries a name that was unmarked when it was entered. */
  predicate UnmarkedOnEntry(marked: set<string>, entered: seq<StateVertex>, k: int)
    requires 0 <= k < |entered|
  {
    entered[k].name !in marked + NamesOf(entered[..k])
  }

  /** Some earlier entry of the walk went on to entry `k`. */
  ghost predicate EnteredFromEarlier(g: Graph, marked: set<string>, entered: seq<StateVertex>, k: int)
    requires 0 <= k < |entered|
  {
    exists j :: 0 <= j < k && EntersFrom(g, marked, entered, j, k)
  }

  /**
   The states of a walk that are reported as deep: entry `k` is kept exactly when it passes
   the deep-state test against the names marked once it has been entered.
   */
  function DeepFilter(g: Graph, marked: set<string>, entered: seq<StateVertex>): seq<StateVertex>
    decreases |entered|
  {
    if entered == [] then []
    else
      var now := marked + {entered[0].name};
      (if IsDeep(g, entered[0].fingerprint, now) then [entered[0]] else [])
        + DeepFilter(g, now, entered[1..])
  }

  lemma AppendAssociates<T>(x: seq<T>, y: seq<T>, z: seq<T>)
    ensures x + (y + z) == (x + y) + z
  {
  }

  lemma TailOfAppend<T>(a: seq<T>, b: seq<T>)
    requires a != []
    ensures (a + b)[0] == a[0] && (a + b)[1..] == a[1..] + b
  {
  }

  lemma AppendEmpty<T>(x: seq<T>)
    ensures [] + x == x && x + [] == x
  {
  }

  /** `DeepFilter` on a non-empty walk: the first entry's own verdict, then the rest's. */
  lemma DeepFilterCons(g: Graph, marked: set<string>, s: seq<StateVertex>)
    requires s != []
    ensures DeepFilter(g, marked, s) ==
              (if IsDeep(g, s[0].fingerprint, marked + {s[0].name}) then [s[0]] else [])
                + DeepFilter(g, marked + {s[0].name}, s[1..])
  {
  }

  lemma {:induction false} DeepFilterAppend(g: Graph, marked: set<string>, a: seq<StateVertex>, b: seq<StateVertex>)
    ensures DeepFilter(g, marked, a + b) == DeepFilter(g, marked, a) + DeepFilter(g, marked + NamesOf(a), b)
    decreases |a|
  {
    if a == [] {
      assert a + b == b;
      assert marked + NamesOf(a) == marked;
      assert DeepFilter(g, marked, a) == [];
    } else {
      var now := marked + {a[0].name};
      var head := if IsDeep(g, a[0].fingerprint, now) then [a[0]] else [];
      assert marked + NamesOf(a) == now + NamesOf(a[1..]) by {
        assert a == [a[0]] + a[1..];
        NamesOfAppend([a[0]], a[1..]);
        assert NamesOf([a[0]]) == {a[0].name};
      }
      TailOfAppend(a, b);
      DeepFilterCons(g, marked, a);
      DeepFilterCons(g, marked, a + b);
      DeepFilterAppend(g, now, a[1..], b);
      AppendAssociates(head, DeepFilter(g, now, a[1..]), DeepFilter(g, now + NamesOf(a[1..]), b));
    }
  }

  /** An entry that passes the deep-state test once it has been entered is kept. */
  lemma {:induction false} DeepFilterKeeps(g: Graph, marked: set<string>, s: seq<StateVertex>, k: int)
    requires 0 <= k < |s| && IsDeep(g, s[k].fingerprint, marked + NamesOf(s[..k + 1]))
    ensures s[k] in DeepFilter(g, marked, s)
    decreases k
  {
    var now := marked + {s[0].name};
    var rest := s[1..];
    DeepFilterCons(g, marked, s);
    NamesOfPrefix(s, k);
    if k != 0 {
      assert s[k] == rest[k - 1];
      DeepFilterKeeps(g, now, rest, k - 1);
    }
  }

  /** Every state `DeepFilter` keeps is an entry, at index `k`, that passed the deep-state test once entered. */
  lemma {:induction false} DeepFilterFrom(g: Graph, marked: set<string>, s: seq<StateVertex>, x: StateVertex)
    returns (k: int)
    requires x in DeepFilter(g, marked, s)
    ensures 0 <= k < |s| && s[k] == x && IsDeep(g, x.fingerprint, marked + NamesOf(s[..k + 1]))
    decreases |s|
  {
    var now := marked + {s[0].name};
    var rest := s[1..];
    DeepFilterCons(g, marked, s);
    if x in DeepFilter(g, now, rest) {
      var j := DeepFilterFrom(g, now, rest, x);
      k := j + 1;
      NamesOfPrefix(s, k);
    } else {
      k := 0;
      NamesOfPrefix(s, 0);
    }
  }

  /**
   The entries `DeepFilter` keeps are exactly those that pass the deep-state test against
   the names marked once they have been entered.
   */
  lemma DeepFilterMembers(g: Graph, marked: set<string>, s: seq<StateVertex>)
    ensures forall k :: 0 <= k < |s| && IsDeep(g, s[k].fingerprint, marked + NamesOf(s[..k + 1])) ==>
              s[k] in DeepFilter(g, marked, s)
    ensures forall x :: x in DeepFilter(g, marked, s) ==>
              exists k :: 0 <= k < |s| && s[k] == x && IsDeep(g, x.fingerprint, marked + NamesOf(s[..k + 1]))
  {
    forall k | 0 <= k < |s| && IsDeep(g, s[k].fingerprint, marked + NamesOf(s[..k + 1]))
      ensures s[k] in DeepFilter(g, marked, s)
    {
      DeepFilterKeeps(g, marked, s, k);
    }
    forall x | x in DeepFilter(g, marked, s)
      ensures exists k :: 0 <= k < |s| && s[k] == x && IsDeep(g, x.fingerprint, marked + NamesOf(s[..k + 1]))
    {
      var k := DeepFilterFrom(g, marked, s, x);
    }
  }

  /** A walk whose entries were unmarked when entered reports each name at most once. */
  lemma {:induction false} DeepFilterNames(g: Graph, marked: set<string>, s: seq<StateVertex>)
    requires forall k :: 0 <= k < |s| ==> UnmarkedOnEntry(marked, s, k)
    ensures forall x :: x in DeepFilter(g, marked, s) ==> x.name !in marked
    ensures forall i, j :: 0 <= i < j < |DeepFilter(g, marked, s)| ==>
              DeepFilter(g, marked, s)[i].name != DeepFilter(g, marked, s)[j].name
    decreases |s|
  {
    if s != [] {
      var now := marked + {s[0].name};
      var rest := s[1..];
      assert UnmarkedOnEntry(marked, s, 0) && s[..0] == [];
      forall k | 0 <= k < |rest|
        ensures UnmarkedOnEntry(now, rest, k)
      {
        assert UnmarkedOnEntry(marked, s, k + 1);
        NamesOfPrefix(s, k);
        assert rest[k] == s[k + 1];
      }
      DeepFilterNames(g, now, rest);
    }
  }

  /**
   A walk entered from its first entry, appended to it, is again a walk: `Traverse` enters
   `sub` from the state at the head of `s`, once the names of `s` are marked.
   */
  lemma WalkAppend(g: Graph, marked: set<string>, s: seq<StateVertex>, sub: seq<StateVertex>)
    requires IsWalk(g, marked, s) && IsWalk(g, marked + NamesOf(s), sub)
    requires sub[0] == StateOf(g, sub[0].fingerprint)
    requires sub[0].fingerprint in Successors(g, s[0].fingerprint)
    requires !IsDeep(g, s[0].fingerprint, marked + {s[0].name})
    requires forall i :: 1 <= i < |s| ==> SuccessorNames(g, s[i].fingerprint) <= marked + NamesOf(s)
    ensures IsWalk(g, marked, s + sub)
  {
    var u := s + sub;
    forall k | 0 <= k < |u|
      ensures u[k].fingerprint in g.vertices
      ensures UnmarkedOnEntry(marked, u, k)
    {
      if k < |s| {
        assert UnmarkedOnEntry(marked, s, k);
        assert u[k] == s[k] && u[..k] == s[..k];
      } else {
        var m := k - |s|;
        assert UnmarkedOnEntry(marked + NamesOf(s), sub, m);
        assert u[k] == sub[m] && u[..k] == s + sub[..m];
        NamesOfAppend(s, sub[..m]);
      }
    }
    forall k | 1 <= k < |u|
      ensures u[k] == StateOf(g, u[k].fingerprint)
      ensures EnteredFromEarlier(g, marked, u, k)
    {
      if k < |s| {
        assert u[k] == s[k];
        ParentInPrefix(g, marked, s, sub, k);
      } else if k == |s| {
        assert u[k] == sub[0];
        ParentAtJoin(g, marked, s, sub);
      } else {
        assert u[k] == sub[k - |s|];
        ParentInSuffix(g, marked, s, sub, k);
      }
    }
  }

  lemma ParentInPrefix(g: Graph, marked: set<string>, s: seq<StateVertex>, sub: seq<StateVertex>, k: int)
    requires 1 <= k < |s|
    requires EnteredFromEarlier(g, marked, s, k)
    ensures EnteredFromEarlier(g, marked, s + sub, k)
  {
    var u := s + sub;
    var j :| 0 <= j < k && EntersFrom(g, marked, s, j, k);
    assert u[j] == s[j] && u[k] == s[k] && u[..j + 1] == s[..j + 1] && u[..k] == s[..k];
    assert forall i :: j < i < k ==> u[i] == s[i];
    assert EntersFrom(g, marked, u, j, k);
  }

  lemma ParentAtJoin(g: Graph, marked: set<string>, s: seq<StateVertex>, sub: seq<StateVertex>)
    requires |s| >= 1 && |sub| >= 1
    requires sub[0].fingerprint in Successors(g, s[0].fingerprint)
    requires !IsDeep(g, s[0].fingerprint, marked + {s[0].name})
    requires forall i :: 1 <= i < |s| ==> SuccessorNames(g, s[i].fingerprint) <= marked + NamesOf(s)
    ensures EnteredFromEarlier(g, marked, s + sub, |s|)
  {
    var u := s + sub;
    assert u[|s|] == sub[0] && u[0] == s[0] && u[..1] == [s[0]] && u[..|s|] == s;
    assert forall i :: 0 < i < |s| ==> u[i] == s[i];
    assert NamesOf([s[0]]) == {s[0].name};
    assert EntersFrom(g, marked, u, 0, |s|);
  }

  lemma ParentInSuffix(g: Graph, marked: set<string>, s: seq<StateVertex>, sub: seq<StateVertex>, k: int)
    requires |s| < k < |s| + |sub|
    requires EnteredFromEarlier(g, marked + NamesOf(s), sub, k - |s|)
    ensures EnteredFromEarlier(g, marked, s + sub, k)
  {
    var u := s + sub;
    var m := k - |s|;
    var jj :| 0 <= jj < m && EntersFrom(g, marked + NamesOf(s), sub, jj, m);
    var j := jj + |s|;
    assert u[j] == sub[jj] && u[k] == sub[m] && u[..j + 1] == s + sub[..jj + 1];
    assert u[..k] == s + sub[..m];
    NamesOfAppend(s, sub[..jj + 1]);
    NamesOfAppend(s, sub[..m]);
    assert forall i :: j < i < k ==> u[i] == sub[i - |s|];
    assert EntersFrom(g, marked, u, j, k);
  }

  /** Every entry of `s` is the stored copy of its vertex. */
  predicate StoredCopies(g: Graph, s: seq<StateVertex>) {
    forall k :: 0 <= k < |s| ==> s[k].fingerprint in g.vertices && s[k] == StateOf(g, s[k].fingerprint)
  }

  /**
   On a graph with unique names, an edge out of an entry whose outgoing names the walk
   marked leads to an entry of the walk.
   */
  lemma WalkEntersSuccessor(g: Graph, s: seq<StateVertex>, k: int, next: Fingerprint)
    requires Valid(g) && UniqueNames(g) && StoredCopies(g, s)
    requires 0 <= k < |s| && SuccessorNames(g, s[k].fingerprint) <= NamesOf(s)
    requires ContainsEdge(g, s[k].fingerprint, next)
    ensures exists m :: 0 <= m < |s| && s[m].fingerprint == next
  {
    var c :| c in g.edges && g.edges[c] == Endpoints(s[k].fingerprint, next);
    assert next in Successors(g, s[k].fingerprint);
    assert g.vertices[next].name in NamesOf(s);
    var e :| e in s && e.name == g.vertices[next].name;
    var m :| 0 <= m < |s| && s[m] == e;
    assert s[m].fingerprint == next;
  }

  /**
   A walk of stored states that leaves no outgoing name of any entry unmarked has entered
   every vertex reachable from its start, provided no two vertices share a name.
   */
  lemma WalkCoversReachable(g: Graph, s: seq<StateVertex>, v: Fingerprint)
    requires Valid(g) && UniqueNames(g)
    requires |s| >= 1 && StoredCopies(g, s)
    requires forall k :: 0 <= k < |s| ==> SuccessorNames(g, s[k].fingerprint) <= NamesOf(s)
    requires Reaches(g, s[0].fingerprint, v)
    ensures exists k :: 0 <= k < |s| && s[k].fingerprint == v
  {
    var p :| IsPath(g, p) && p[0] == s[0].fingerprint && p[|p| - 1] == v;
    var i := 0;
    while i < |p| - 1
      invariant 0 <= i < |p|
      invariant exists k :: 0 <= k < |s| && s[k].fingerprint == p[i]
    {
      var k :| 0 <= k < |s| && s[k].fingerprint == p[i];
      assert ContainsEdge(g, p[i], p[i + 1]);
      WalkEntersSuccessor(g, s, k, p[i + 1]);
      i := i + 1;
    }
  }

  lemma SubsetOfSameSize<T>(a: set<T>, b: set<T>)
    requires a <= b && |a| == |b|
    ensures a == b
  {
    if a != b {
      ProperSubsetSmaller(a, b);
    }
  }

  lemma ProperSubsetSmaller<T>(a: set<T>, b: set<T>)
    requires a < b
    ensures |a| < |b|
  {
    assert b == a + (b - a);
    assert b - a != {};
  }

  /** Whether every state of `outgoingSet` is marked, decided by counting the marked ones. */
  method Cyclic(visitedStates: set<string>, outgoingSet: set<StateVertex>) returns (b: bool)
    ensures b <==> forall st :: st in outgoingSet ==> st.name in visitedStates
  {
    var i := 0;
    var rest := outgoingSet;
    while rest != {}
      invariant rest <= outgoingSet
      invariant i == |set x | x in outgoingSet - rest && x.name in visitedStates|
      decreases rest
    {
      var st :| st in rest;
      ghost var before := set x | x in outgoingSet - rest && x.name in visitedStates;
      rest := rest - {st};
      if st.name in visitedStates {
        assert (set x | x in outgoingSet - rest && x.name in visitedStates) == before + {st};
        i := i + 1;
      } else {
        assert (set x | x in outgoingSet - rest && x.name in visitedStates) == before;
      }
    }
    ghost var counted := set x | x in outgoingSet && x.name in visitedStates;
    assert outgoingSet - rest == outgoingSet;
    b := i == |outgoingSet|;
    if b {
      SubsetOfSameSize(counted, outgoingSet);
    } else {
      assert counted != outgoingSet;
    }
  }

  /** The walk's measure shrinks when it moves from `state` to an unmarked vertex name. */
  lemma MeasureDecreases(names: set<string>, from: string, to: string,
                         visitedBefore: set<string>, visitedNow: set<string>)
    requires to in names && from !in visitedBefore
    requires visitedBefore + {from} <= visitedNow
    ensures |(names + {to}) - visitedNow| < |(names + {from}) - visitedBefore|
  {
    assert (names + {to}) - visitedNow < (names + {from}) - visitedBefore by {
      assert from in (names + {from}) - visitedBefore;
      assert from !in (names + {to}) - visitedNow;
    }
    ProperSubsetSmaller((names + {to}) - visitedNow, (names + {from}) - visitedBefore);
  }

  /** The reports of the walk so far followed by those of one more call are those of the longer walk. */
  lemma DeepAfterStep(g: Graph, visitedStates: set<string>, deepStates: seq<StateVertex>,
                      s: seq<StateVertex>, visitedBefore: set<string>, deepBefore: seq<StateVertex>,
                      sub: seq<StateVertex>, deepAfter: seq<StateVertex>)
    requires visitedBefore == visitedStates + NamesOf(s)
    requires deepBefore == deepStates + DeepFilter(g, visitedStates, s)
    requires deepAfter == deepBefore + DeepFilter(g, visitedBefore, sub)
    ensures deepAfter == deepStates + DeepFilter(g, visitedStates, s + sub)
  {
    DeepFilterAppend(g, visitedStates, s, sub);
  }

  /**
   One call of `Traverse` inside the loop of `WalkOn`: the walk so far, followed by the
   states the call entered, is again a walk with the bookkeeping the loop keeps.
   */
  lemma ExtendWalk(g: Graph, visitedStates: set<string>, deepStates: seq<StateVertex>,
                   s: seq<StateVertex>, visitedBefore: set<string>, deepBefore: seq<StateVertex>,
                   sub: seq<StateVertex>, visitedAfter: set<string>, deepAfter: seq<StateVertex>)
    requires IsWalk(g, visitedStates, s)
    requires !IsDeep(g, s[0].fingerprint, visitedStates + {s[0].name})
    requires visitedBefore == visitedStates + NamesOf(s)
    requires deepBefore == deepStates + DeepFilter(g, visitedStates, s)
    requires forall k :: 1 <= k < |s| ==> SuccessorNames(g, s[k].fingerprint) <= visitedBefore
    requires IsWalk(g, visitedBefore, sub)
    requires sub[0] == StateOf(g, sub[0].fingerprint) && sub[0].fingerprint in Successors(g, s[0].fingerprint)
    requires visitedAfter == visitedBefore + NamesOf(sub)
    requires deepAfter == deepBefore + DeepFilter(g, visitedBefore, sub)
    requires forall k :: 0 <= k < |sub| ==> SuccessorNames(g, sub[k].fingerprint) <= visitedAfter
    ensures IsWalk(g, visitedStates, s + sub) && (s + sub)[0] == s[0]
    ensures visitedAfter == visitedStates + NamesOf(s + sub)
    ensures deepAfter == deepStates + DeepFilter(g, visitedStates, s + sub)
    ensures forall k :: 1 <= k < |s + sub| ==> SuccessorNames(g, (s + sub)[k].fingerprint) <= visitedAfter
  {
    WalkAppend(g, visitedStates, s, sub);
    DeepAfterStep(g, visitedStates, deepStates, s, visitedBefore, deepBefore, sub, deepAfter);
    NamesOfAppend(s, sub);
    forall k | 1 <= k < |s + sub|
      ensures SuccessorNames(g, (s + sub)[k].fingerprint) <= visitedAfter
    {
      if k < |s| {
        assert (s + sub)[k] == s[k];
      } else {
        assert (s + sub)[k] == sub[k - |s|];
      }
    }
  }

  lemma ReachesExtend(g: Graph, a: Fingerprint, b: Fingerprint, c: Fingerprint)
    requires Reaches(g, a, b) && ContainsEdge(g, b, c)
    ensures Reaches(g, a, c)
  {
    var p :| IsPath(g, p) && p[0] == a && p[|p| - 1] == b;
    var q := p + [c];
    assert forall i :: 0 <= i < |p| ==> q[i] == p[i];
    assert q[|p|] == c;
    assert IsPath(g, q);
  }

  /** Every state a walk enters is reachable from its first one. */
  lemma {:induction false} WalkReaches(g: Graph, marked: set<string>, s: seq<StateVertex>, k: int)
    requires IsWalk(g, marked, s) && 0 <= k < |s|
    ensures Reaches(g, s[0].fingerprint, s[k].fingerprint)
    decreases k
  {
    if k == 0 {
      ReachesSelf(g, s[0].fingerprint);
    } else {
      assert EnteredFromEarlier(g, marked, s, k);
      var j :| 0 <= j < k && EntersFrom(g, marked, s, j, k);
      WalkReaches(g, marked, s, j);
      ReachesExtend(g, s[0].fingerprint, s[j].fingerprint, s[k].fingerprint);
    }
  }

  /**
   The marks of a walk whose first state failed the deep-state test and that left no outgoing
   name unmarked: they grow past the first state's name, and only by vertex names.
   */
  lemma FinishedWalkMarks(g: Graph, marked: set<string>, s: seq<StateVertex>, visited: set<string>)
    requires IsWalk(g, marked, s)
    requires visited == marked + NamesOf(s)
    requires SuccessorNames(g, s[0].fingerprint) <= visited
    requires !IsDeep(g, s[0].fingerprint, marked + {s[0].name})
    ensures marked + {s[0].name} <= visited <= marked + {s[0].name} + Names(g)
    ensures visited != marked + {s[0].name}
  {
    assert s[0] in s;
    forall n | n in NamesOf(s)
      ensures n in marked + {s[0].name} + Names(g)
    {
      var e :| e in s && e.name == n;
      var k :| 0 <= k < |s| && s[k] == e;
      if k >= 1 {
        assert s[k] == StateOf(g, s[k].fingerprint);
        assert g.vertices[s[k].fingerprint].name == n;
      }
    }
  }

  /** A walk that left no outgoing name unmarked reports its last state. */
  lemma FinishedWalkReportsLast(g: Graph, marked: set<string>, s: seq<StateVertex>)
    requires |s| >= 1
    requires SuccessorNames(g, s[|s| - 1].fingerprint) <= marked + NamesOf(s)
    ensures s[|s| - 1] in DeepFilter(g, marked, s)
  {
    DeepFilterMembers(g, marked, s);
    assert s[..|s|] == s;
  }

  /**
   An entry reported by a walk whose first state failed the deep-state test is not named as
   the first state or as a name marked before, and is a reachable vertex that meets the
   deep-state test against every name the walk marks.
   */
  lemma ReportedEntry(g: Graph, marked: set<string>, s: seq<StateVertex>, k: int)
    requires IsWalk(g, marked, s) && 0 <= k < |s|
    requires !IsDeep(g, s[0].fingerprint, marked + {s[0].name})
    requires IsDeep(g, s[k].fingerprint, marked + NamesOf(s[..k + 1]))
    ensures s[k].name !in marked + {s[0].name}
    ensures Classified(g, s[k], marked + NamesOf(s))
    ensures Reaches(g, s[0].fingerprint, s[k].fingerprint)
  {
    NamesOfPrefix(s, 0);
    assert k != 0;
    assert UnmarkedOnEntry(marked, s, k);
    assert s[0] in s[..k];
    assert s[k] in s;
    NamesOfPrefixWithin(s, k + 1);
    WalkReaches(g, marked, s, k);
  }

  /** What `WalkOn` promises about its marks and reports, read off its walk. */
  lemma FinishedWalk(g: Graph, marked: set<string>, s: seq<StateVertex>,
                     deepStates: seq<StateVertex>, deep: seq<StateVertex>, visited: set<string>)
    requires IsWalk(g, marked, s)
    requires visited == marked + NamesOf(s)
    requires deep == deepStates + DeepFilter(g, marked, s)
    requires forall k :: 0 <= k < |s| ==> SuccessorNames(g, s[k].fingerprint) <= visited
    requires !IsDeep(g, s[0].fingerprint, marked + {s[0].name})
    ensures marked + {s[0].name} <= visited <= marked + {s[0].name} + Names(g)
    ensures visited != marked + {s[0].name}
    ensures deepStates < deep
    ensures forall i :: |deepStates| <= i < |deep| ==> deep[i].name !in marked + {s[0].name}
    ensures forall i :: |deepStates| <= i < |deep| ==> Classified(g, deep[i], visited)
    ensures forall i :: |deepStates| <= i < |deep| ==> Reaches(g, s[0].fingerprint, deep[i].fingerprint)
  {
    FinishedWalkMarks(g, marked, s, visited);
    FinishedWalkReportsLast(g, marked, s);
    DeepFilterMembers(g, marked, s);
    forall i | |deepStates| <= i < |deep|
      ensures deep[i].name !in marked + {s[0].name}
      ensures Classified(g, deep[i], visited)
      ensures Reaches(g, s[0].fingerprint, deep[i].fingerprint)
    {
      assert deep[i] in DeepFilter(g, marked, s) by {
        assert deep[i] == DeepFilter(g, marked, s)[i - |deepStates|];
      }
      var k :| 0 <= k < |s| && s[k] == deep[i] && IsDeep(g, s[k].fingerprint, marked + NamesOf(s[..k + 1]));
      ReportedEntry(g, marked, s, k);
    }
  }

  /**
   One step of the walk: marks `state`, then either reports it as deep or walks on into
   each outgoing state that is still unmarked.  It is entered only for an unmarked name.
   The state is reported, and nothing else happens, exactly when it passes the deep-state
   test on entry; every state reported further down was unmarked when it was entered.
   `entered` records the states the call entered, in order: the call marks exactly their
   names, leaves no outgoing name of any of them unmarked, and reports exactly those that
   passed the deep-state test when they were entered.
   */
  method Traverse(g: Graph, visitedStates: set<string>, deepStates: seq<StateVertex>, state: StateVertex)
    returns (visited: set<string>, deep: seq<StateVertex>, ghost entered: seq<StateVertex>)
    requires Valid(g)
    requires state.fingerprint in g.vertices
    requires state.name !in visitedStates
    ensures IsDeep(g, state.fingerprint, visitedStates + {state.name}) <==>
              visited == visitedStates + {state.name} && deep == deepStates + [state]
    ensures !IsDeep(g, state.fingerprint, visitedStates + {state.name}) ==>
              forall i :: |deepStates| <= i < |deep| ==> deep[i].name != state.name
    ensures forall i :: |deepStates| <= i < |deep| ==> deep[i].name !in visitedStates
    ensures visitedStates + {state.name} <= visited
    ensures visited <= visitedStates + {state.name} + Names(g)
    ensures deepStates < deep
    ensures forall i :: |deepStates| <= i < |deep| ==> Classified(g, deep[i], visited)
    ensures forall i :: |deepStates| <= i < |deep| ==> Reaches(g, state.fingerprint, deep[i].fingerprint)
    ensures IsWalk(g, visitedStates, entered) && entered[0] == state
    ensures visited == visitedStates + NamesOf(entered)
    ensures deep == deepStates + DeepFilter(g, visitedStates, entered)
    ensures forall k :: 0 <= k < |entered| ==> SuccessorNames(g, entered[k].fingerprint) <= visited
    decreases |(Names(g) + {state.name}) - visitedStates|, 1
  {
    visited := visitedStates + {state.name};
    deep := deepStates;
    entered := [state];
    assert NamesOf(entered) == {state.name} && entered[..0] == [];
    var outgoing := GetOutgoingStates(g, state);
    var outgoingSet := outgoing.value;
    ReachesSelf(g, state.fingerprint);
    if outgoingSet == {} {
      assert Successors(g, state.fingerprint) == {};
      SingleEntry(g, visitedStates, state);
      deep := deep + [state];
    } else {
      var cyclic := Cyclic(visited, outgoingSet);
      if cyclic {
        assert SuccessorNames(g, state.fingerprint) <= visited by {
          forall t | t in Successors(g, state.fingerprint)
            ensures g.vertices[t].name in visited
          {
            assert StateOf(g, t).name == g.vertices[t].name;
          }
        }
        SingleEntry(g, visitedStates, state);
        deep := deep + [state];
      } else {
        var w :| w in outgoingSet && w.name !in visited;
        assert w.name in SuccessorNames(g, state.fingerprint);
        visited, deep, entered := WalkOn(g, visitedStates, state, visited, deep, outgoingSet);
      }
    }
  }

  /**
   The loop of `Traverse` over the outgoing states of a state that failed the deep-state
   test: enters each outgoing state whose name is unmarked at the time it is reached.
   `entered` records `state` followed by the states the loop's calls entered, in order.
   */
  method WalkOn(g: Graph, ghost visitedStates: set<string>, state: StateVertex,
                marked: set<string>, deepStates: seq<StateVertex>, outgoingSet: set<StateVertex>)
    returns (visited: set<string>, deep: seq<StateVertex>, ghost entered: seq<StateVertex>)
    requires Valid(g)
    requires state.fingerprint in g.vertices
    requires state.name !in visitedStates && marked == visitedStates + {state.name}
    requires forall st :: st in outgoingSet ==>
               st.fingerprint in Successors(g, state.fingerprint) && st == StateOf(g, st.fingerprint)
    requires forall t :: t in Successors(g, state.fingerprint) ==> StateOf(g, t) in outgoingSet
    requires exists st :: st in outgoingSet && st.name !in marked
    ensures marked <= visited <= marked + Names(g)
    ensures visited != marked
    ensures deepStates < deep
    ensures forall i :: |deepStates| <= i < |deep| ==> deep[i].name !in marked
    ensures forall i :: |deepStates| <= i < |deep| ==> Classified(g, deep[i], visited)
    ensures forall i :: |deepStates| <= i < |deep| ==> Reaches(g, state.fingerprint, deep[i].fingerprint)
    ensures IsWalk(g, visitedStates, entered) && entered[0] == state
    ensures visited == visitedStates + NamesOf(entered)
    ensures deep == deepStates + DeepFilter(g, visitedStates, entered)
    ensures forall k :: 0 <= k < |entered| ==> SuccessorNames(g, entered[k].fingerprint) <= visited
    decreases |(Names(g) + {state.name}) - visitedStates|, 0
  {
    visited, deep := marked, deepStates;
    entered := [state];
    assert !IsDeep(g, state.fingerprint, marked) by {
      var w :| w in outgoingSet && w.name !in marked;
      assert w.name in SuccessorNames(g, state.fingerprint);
    }
    SingleEntry(g, visitedStates, state);
    AppendEmpty(deepStates);
    var rest := outgoingSet;
    while rest != {}
      invariant rest <= outgoingSet
      invariant IsWalk(g, visitedStates, entered) && entered[0] == state
      invariant visited == visitedStates + NamesOf(entered)
      invariant deep == deepStates + DeepFilter(g, visitedStates, entered)
      invariant forall k :: 1 <= k < |entered| ==> SuccessorNames(g, entered[k].fingerprint) <= visited
      invariant forall st :: st in outgoingSet - rest ==> st.name in visited
      decreases rest
    {
      var st :| st in rest;
      rest := rest - {st};
      if st.name !in visited {
        assert st.name in Names(g) by {
          assert st.fingerprint in g.vertices && st.name == g.vertices[st.fingerprint].name;
        }
        assert state.name in visited by {
          assert entered[0] in entered;
        }
        MeasureDecreases(Names(g), state.name, st.name, visitedStates, visited);
        ghost var deepBefore, visitedBefore, enteredBefore := deep, visited, entered;
        ghost var sub;
        visited, deep, sub := Traverse(g, visited, deep, st);
        ExtendWalk(g, visitedStates, deepStates, enteredBefore, visitedBefore, deepBefore, sub, visited, deep);
        entered := enteredBefore + sub;
        assert st.name in visited by {
          assert sub[0] in sub;
        }
      }
    }
    assert SuccessorNames(g, state.fingerprint) <= visited by {
      forall t | t in Successors(g, state.fingerprint)
        ensures g.vertices[t].name in visited
      {
        assert StateOf(g, t) in outgoingSet;
      }
    }
    FinishedWalk(g, visitedStates, entered, deepStates, deep, visited);
  }

  lemma NoMarksAdded(x: set<string>)
    ensures {} + x == x
  {
  }

  /** Every state a walk from no marked names reports passed the deep-state test on entry, and names differ. */
  lemma WholeWalkReports(g: Graph, entered: seq<StateVertex>)
    requires IsWalk(g, {}, entered)
    ensures forall d :: d in DeepFilter(g, {}, entered) ==>
              exists k :: 0 <= k < |entered| && entered[k] == d && IsDeep(g, d.fingerprint, NamesOf(entered[..k + 1]))
    ensures forall i, j :: 0 <= i < j < |DeepFilter(g, {}, entered)| ==>
              DeepFilter(g, {}, entered)[i].name != DeepFilter(g, {}, entered)[j].name
  {
    WholeWalkNames(g, entered);
    forall d | d in DeepFilter(g, {}, entered)
      ensures exists k :: 0 <= k < |entered| && entered[k] == d && IsDeep(g, d.fingerprint, NamesOf(entered[..k + 1]))
    {
      var k := DeepFilterFrom(g, {}, entered, d);
      NoMarksAdded(NamesOf(entered[..k + 1]));
    }
  }

  /** A walk from no marked names reports each name at most once. */
  lemma WholeWalkNames(g: Graph, entered: seq<StateVertex>)
    requires IsWalk(g, {}, entered)
    ensures forall i, j :: 0 <= i < j < |DeepFilter(g, {}, entered)| ==>
              DeepFilter(g, {}, entered)[i].name != DeepFilter(g, {}, entered)[j].name
  {
    assert forall k :: 0 <= k < |entered| ==> UnmarkedOnEntry({}, entered, k);
    DeepFilterNames(g, {}, entered);
  }

  /**
   A complete walk from a stored state, on a graph with unique names, reports every state
   reachable from the start that has no outgoing state.
   */
  lemma WholeWalkReportsLeaves(g: Graph, entered: seq<StateVertex>)
    requires Valid(g) && UniqueNames(g)
    requires IsWalk(g, {}, entered) && entered[0] == StateOf(g, entered[0].fingerprint)
    requires forall k :: 0 <= k < |entered| ==> SuccessorNames(g, entered[k].fingerprint) <= NamesOf(entered)
    ensures forall v :: v in g.vertices && Reaches(g, entered[0].fingerprint, v) && Successors(g, v) == {} ==>
              StateOf(g, v) in DeepFilter(g, {}, entered)
  {
    assert StoredCopies(g, entered);
    forall v | v in g.vertices && Reaches(g, entered[0].fingerprint, v) && Successors(g, v) == {}
      ensures StateOf(g, v) in DeepFilter(g, {}, entered)
    {
      WalkCoversReachable(g, entered, v);
      var k :| 0 <= k < |entered| && entered[k].fingerprint == v;
      assert entered[k] == StateOf(g, v);
      assert IsDeep(g, v, {} + NamesOf(entered[..k + 1]));
      DeepFilterKeeps(g, {}, entered, k);
    }
  }

  /**
   The deep states of a walk from `state`; the graph refuses a start state that is not
   a vertex.  On any finite graph, cyclic or not, the walk ends and reports at least one
   state, each reachable from the start.  The start itself is reported exactly when it
   passes the deep-state test with only its own name marked, and then it is the only one.
   `entered` records the walk: the result is exactly the entered states that passed the
   deep-state test when they were entered, no two of them share a name, and on a graph with
   unique names a walk from a stored state reports every reachable state without outgoing
   states.
   */
  method GetDeepStates(g: Graph, state: StateVertex)
    returns (r: Result<seq<StateVertex>, GraphError>, ghost entered: seq<StateVertex>)
    requires Valid(g)
    ensures r.Failure? <==> state.fingerprint !in g.vertices
    ensures r.Success? ==> |r.value| >= 1
    ensures r.Success? ==> forall d :: d in r.value ==>
              d.fingerprint in g.vertices && Reaches(g, state.fingerprint, d.fingerprint)
    ensures r.Success? ==> (state in r.value <==> IsDeep(g, state.fingerprint, {state.name}))
    ensures r.Success? && IsDeep(g, state.fingerprint, {state.name}) ==> r.value == [state]
    ensures r.Success? ==> IsWalk(g, {}, entered) && entered[0] == state
    ensures r.Success? ==> r.value == DeepFilter(g, {}, entered)
    ensures r.Success? ==> forall k :: 0 <= k < |entered| ==>
              SuccessorNames(g, entered[k].fingerprint) <= NamesOf(entered)
    ensures r.Success? ==> forall d :: d in r.value ==>
              exists k :: 0 <= k < |entered| && entered[k] == d && IsDeep(g, d.fingerprint, NamesOf(entered[..k + 1]))
    ensures r.Success? ==> forall i, j :: 0 <= i < j < |r.value| ==> r.value[i].name != r.value[j].name
    ensures r.Success? && UniqueNames(g) && state == StateOf(g, state.fingerprint) ==>
              forall v :: v in g.vertices && Reaches(g, state.fingerprint, v) && Successors(g, v) == {} ==>
                StateOf(g, v) in r.value
  {
    if state.fingerprint !in g.vertices {
      return Failure(NoSuchVertex), [];
    }
    var visited, deep;
    visited, deep, entered := Traverse(g, {}, [], state);
    assert {} + {state.name} == {state.name};
    if !IsDeep(g, state.fingerprint, {state.name}) {
      assert forall i :: 0 <= i < |deep| ==> deep[i].name != state.name;
    }
    AppendEmpty(DeepFilter(g, {}, entered));
    assert visited == NamesOf(entered) by {
      assert {} + NamesOf(entered) == NamesOf(entered);
    }
    WholeWalkReports(g, entered);
    if UniqueNames(g) && state == StateOf(g, state.fingerprint) {
      WholeWalkReportsLeaves(g, entered);
    }
    return Success(deep), entered;
  }

  /**
   `g` holds the diamond A→B, A→C, B→D, C→D among four differently named stored states,
   with no other edge leaving them.
   */
  predicate Diamond(g: Graph, a: StateVertex, b: StateVertex, c: StateVertex, d: StateVertex) {
    && a.fingerprint in g.vertices && a == StateOf(g, a.fingerprint)
    && b.fingerprint in g.vertices && b == StateOf(g, b.fingerprint)
    && c.fingerprint in g.vertices && c == StateOf(g, c.fingerprint)
    && d.fingerprint in g.vertices && d == StateOf(g, d.fingerprint)
    && a.name != b.name && a.name != c.name && a.name != d.name
    && b.name != c.name && b.name != d.name && c.name != d.name
    && Successors(g, a.fingerprint) == {b.fingerprint, c.fingerprint}
    && Successors(g, b.fingerprint) == {d.fingerprint}
    && Successors(g, c.fingerprint) == {d.fingerprint}
    && Successors(g, d.fingerprint) == {}
  }

  /** The outgoing names in the diamond. */
  lemma DiamondSuccessorNames(g: Graph, a: StateVertex, b: StateVertex, c: StateVertex, d: StateVertex)
    requires Diamond(g, a, b, c, d)
    ensures SuccessorNames(g, a.fingerprint) == {b.name, c.name}
    ensures SuccessorNames(g, b.fingerprint) == {d.name} && SuccessorNames(g, c.fingerprint) == {d.name}
  {
    assert b.fingerprint in Successors(g, a.fingerprint) && c.fingerprint in Successors(g, a.fingerprint);
    assert d.fingerprint in Successors(g, b.fingerprint) && d.fingerprint in Successors(g, c.fingerprint);
  }

  lemma NamesOfSingle(x: StateVertex)
    ensures NamesOf([x]) == {x.name}
  {
    assert x in [x];
  }

  /** The names marked along the record `w`, `x`, `y`, `z`, entry by entry. */
  lemma NamesOfFour(w: StateVertex, x: StateVertex, y: StateVertex, z: StateVertex)
    ensures var s := [w, x, y, z];
      && NamesOf(s[..0]) == {} && NamesOf(s[..1]) == {w.name} && NamesOf(s[..2]) == {w.name, x.name}
      && NamesOf(s[..3]) == {w.name, x.name, y.name}
  {
    var s := [w, x, y, z];
    NamesOfSingle(w);
    NamesOfSingle(x);
    NamesOfSingle(y);
    assert s[..1] == [w] && s[..2] == [w] + [x];
    assert s[..3] == s[..2] + [y];
    NamesOfAppend([w], [x]);
    NamesOfAppend(s[..2], [y]);
  }

  /**
   In the diamond, the depth-first record from A that takes B first is a walk: C is entered
   from A once B has finished, that is, once D is marked.
   */
  lemma DiamondDepthFirst(g: Graph, a: StateVertex, b: StateVertex, c: StateVertex, d: StateVertex)
    requires Diamond(g, a, b, c, d)
    ensures IsWalk(g, {}, [a, b, d, c])
  {
    DiamondDepthFirstParents(g, a, b, c, d);
    DiamondDepthFirstUnmarked(a, b, c, d);
    var s := [a, b, d, c];
    assert EnteredFromEarlier(g, {}, s, 1) && EnteredFromEarlier(g, {}, s, 2) && EnteredFromEarlier(g, {}, s, 3);
    forall k | 0 <= k < |s|
      ensures s[k].fingerprint in g.vertices
      ensures 1 <= k ==> s[k] == StateOf(g, s[k].fingerprint) && EnteredFromEarlier(g, {}, s, k)
    {
      assert k == 0 || k == 1 || k == 2 || k == 3;
    }
  }

  /** Each entry of the depth-first record A, B, D, C carries a name not marked before it. */
  lemma DiamondDepthFirstUnmarked(a: StateVertex, b: StateVertex, c: StateVertex, d: StateVertex)
    requires a.name != b.name && a.name != c.name && a.name != d.name
    requires b.name != c.name && b.name != d.name && c.name != d.name
    ensures forall k :: 0 <= k < 4 ==> UnmarkedOnEntry({}, [a, b, d, c], k)
  {
    NamesOfFour(a, b, d, c);
    var s := [a, b, d, c];
    forall k | 0 <= k < 4
      ensures UnmarkedOnEntry({}, s, k)
    {
      assert k == 0 || k == 1 || k == 2 || k == 3;
    }
  }

  /** In the depth-first record A, B, D, C, A enters B, B enters D, and A enters C. */
  lemma DiamondDepthFirstParents(g: Graph, a: StateVertex, b: StateVertex, c: StateVertex, d: StateVertex)
    requires Diamond(g, a, b, c, d)
    ensures var s := [a, b, d, c];
      EntersFrom(g, {}, s, 0, 1) && EntersFrom(g, {}, s, 1, 2) && EntersFrom(g, {}, s, 0, 3)
  {
    DiamondSuccessorNames(g, a, b, c, d);
    NamesOfFour(a, b, d, c);
    var s := [a, b, d, c];
    assert !IsDeep(g, a.fingerprint, {} + {a.name});
    assert !IsDeep(g, b.fingerprint, {} + {a.name, b.name});
    assert SuccessorNames(g, b.fingerprint) <= {} + {a.name, b.name, d.name};
  }

  /** That depth-first walk reports D and then C, as the Java walk does when it takes B first. */
  lemma DiamondDepthFirstReports(g: Graph, a: StateVertex, b: StateVertex, c: StateVertex, d: StateVertex)
    requires Diamond(g, a, b, c, d)
    ensures DeepFilter(g, {}, [a, b, d, c]) == [d, c]
  {
    var m1 := {} + {a.name};
    var m2 := m1 + {b.name};
    var m3 := m2 + {d.name};
    DiamondDepthFirstTests(g, a, b, c, d);
    var s := [a, b, d, c];
    DeepFilterCons(g, {}, s);
    assert s[1..] == [b, d, c];
    DeepFilterCons(g, m1, s[1..]);
    assert s[1..][1..] == [d, c];
    DeepFilterCons(g, m2, s[1..][1..]);
    assert s[1..][1..][1..] == [c];
    SingleEntry(g, m3, c);
  }

  /** The deep-state test along the depth-first record A, B, D, C: only D and C pass. */
  lemma DiamondDepthFirstTests(g: Graph, a: StateVertex, b: StateVertex, c: StateVertex, d: StateVertex)
    requires Diamond(g, a, b, c, d)
    ensures !IsDeep(g, a.fingerprint, {} + {a.name})
    ensures !IsDeep(g, b.fingerprint, {} + {a.name} + {b.name})
    ensures IsDeep(g, d.fingerprint, {} + {a.name} + {b.name} + {d.name})
    ensures IsDeep(g, c.fingerprint, {} + {a.name} + {b.name} + {d.name} + {c.name})
  {
    DiamondSuccessorNames(g, a, b, c, d);
    assert b.name in SuccessorNames(g, a.fingerprint) && d.name in SuccessorNames(g, b.fingerprint);
  }

  /**
   In the diamond, the breadth-first record A, B, C, D is not a walk: C is entered from A
   while B still has the unmarked outgoing name D.
   */
  lemma DiamondBreadthFirst(g: Graph, a: StateVertex, b: StateVertex, c: StateVertex, d: StateVertex)
    requires Diamond(g, a, b, c, d)
    ensures !IsWalk(g, {}, [a, b, c, d])
  {
    DiamondSuccessorNames(g, a, b, c, d);
    NamesOfFour(a, b, c, d);
    var s := [a, b, c, d];
    assert !EntersFrom(g, {}, s, 0, 2) by {
      assert d.name in SuccessorNames(g, s[1].fingerprint) && d.name !in {} + NamesOf(s[..2]);
    }
    assert !EntersFrom(g, {}, s, 1, 2);
    assert !EnteredFromEarlier(g, {}, s, 2);
  }
}

=== FILE: GraphProperties.dfy ===
/**
 Properties that relate several calls on the state-flow graph: what a run of insertions
 keeps, repeated insertion of one state, parallel and repeated edges, the symmetric
 reachability query, and uniqueness of generated names.
 */
module GraphProperties {
  import opened Results
  import opened StateNames
  import opened StateFlowGraph

  /** One call that changes the graph. */
  datatype Op =
    | InsertState(state: StateVertex, correctName: bool)
    | InsertEdge(source: StateVertex, target: StateVertex, clickable: Eventable)
    | IssueStateName

  /** The graph after `op`; an edge the graph refuses with an exception changes nothing. */
  function Apply(g: Graph, op: Op): Graph {
    match op
    case InsertState(s, c) => AddState(g, s, c).graph
    case InsertEdge(s, t, c) =>
      var r := AddEdge(g, s, t, c);
      if r.Success? then r.value.graph else g
    case IssueStateName => GetNewStateName(g).0
  }

  /** The graph after the calls `ops`, in order. */
  function Run(g: Graph, ops: seq<Op>): Graph
    decreases |ops|
  {
    if ops == [] then g else Run(Apply(g, ops[0]), ops[1..])
  }

  /** How many of `ops` draw a name from the counter without inserting a state. */
  function IssuedNames(ops: seq<Op>): nat
    decreases |ops|
  {
    if ops == [] then 0 else (if ops[0].IssueStateName? then 1 else 0) + IssuedNames(ops[1..])
  }

  /**
   Any run of calls keeps the invariant, never removes or alters a stored vertex or edge,
   never moves the initial state, and advances the counter by the number of new vertices
   plus the number of names issued.
   */
  lemma {:induction false} RunKeepsGraph(g: Graph, ops: seq<Op>)
    requires Valid(g)
    ensures var h := Run(g, ops);
      && Valid(h)
      && h.initial == g.initial
      && g.vertices.Keys <= h.vertices.Keys
      && (forall fp :: fp in g.vertices ==> h.vertices[fp] == g.vertices[fp])
      && g.edges.Keys <= h.edges.Keys
      && (forall c :: c in g.edges ==> h.edges[c] == g.edges[c])
      && h.stateCounter == g.stateCounter + (|h.vertices| - |g.vertices|) + IssuedNames(ops)
    decreases |ops|
  {
    if ops != [] {
      var g1 := Apply(g, ops[0]);
      assert |g1.vertices| >= |g.vertices| && g1.stateCounter == g.stateCounter + (|g1.vertices| - |g.vertices|) + (if ops[0].IssueStateName? then 1 else 0) by {
        match ops[0]
        case InsertState(s, c) =>
        case InsertEdge(s, t, c) =>
        case IssueStateName =>
      }
      RunKeepsGraph(g1, ops[1..]);
    }
  }

  /**
   After construction and any later calls, exactly the states equal to the one the graph
   was built from are initial, and its stored copy is the one passed in.
   */
  lemma InitialStateFixed(initialState: StateVertex, ops: seq<Op>)
    ensures var h := Run(New(initialState), ops);
      && Valid(h)
      && (forall s :: IsInitialState(h, s) <==> SameState(s, initialState))
      && initialState in AllStates(h)
  {
    var g := New(initialState);
    assert initialState in AllStates(g);
    RunKeepsGraph(g, ops);
    var h := Run(g, ops);
    assert StateOf(h, initialState.fingerprint) == StateOf(g, initialState.fingerprint);
  }

  /** Inserting the states `ss` one after another, collecting each call's return value. */
  function AddEach(g: Graph, ss: seq<StateVertex>, correctName: bool): (r: (Graph, seq<Option<StateVertex>>))
    ensures |r.1| == |ss|
    decreases |ss|
  {
    if ss == [] then (g, [])
    else
      var first := AddState(g, ss[0], correctName);
      var rest := AddEach(first.graph, ss[1..], correctName);
      (rest.0, [first.clone] + rest.1)
  }

  lemma {:induction false} AddEachDuplicates(g: Graph, ss: seq<StateVertex>, correctName: bool)
    requires forall i :: 0 <= i < |ss| ==> ss[i].fingerprint in g.vertices
    ensures AddEach(g, ss, correctName).0 == g
    ensures forall i :: 0 <= i < |ss| ==>
              AddEach(g, ss, correctName).1[i] == Some(StateOf(g, ss[i].fingerprint))
    decreases |ss|
  {
    if ss != [] {
      AddEachDuplicates(g, ss[1..], correctName);
      var rest := AddEach(g, ss[1..], correctName);
      assert forall i :: 1 <= i < |ss| ==> AddEach(g, ss, correctName).1[i] == rest.1[i - 1];
    }
  }

  /**
   Inserting several states with one fingerprint: when it is new, the first insertion
   adds it and returns `None`, every later one returns that stored copy, and the vertex
   count and the counter each grow by one; when it is present, nothing changes and every
   call returns the stored copy.
   */
  lemma InsertSameStateRepeatedly(g: Graph, ss: seq<StateVertex>, correctName: bool)
    requires |ss| >= 1
    requires forall i :: 0 <= i < |ss| ==> SameState(ss[i], ss[0])
    ensures AddEach(g, ss, correctName).0.vertices.Keys == g.vertices.Keys + {ss[0].fingerprint}
    ensures ss[0].fingerprint in g.vertices ==>
              && AddEach(g, ss, correctName).0 == g
              && forall i :: 0 <= i < |ss| ==>
                   AddEach(g, ss, correctName).1[i] == Some(StateOf(g, ss[0].fingerprint))
    ensures ss[0].fingerprint !in g.vertices ==>
              && |AddEach(g, ss, correctName).0.vertices| == |g.vertices| + 1
              && AddEach(g, ss, correctName).0.stateCounter == g.stateCounter + 1
              && AddEach(g, ss, correctName).1[0] == None
              && forall i :: 1 <= i < |ss| ==>
                   AddEach(g, ss, correctName).1[i]
                   == Some(StateOf(AddEach(g, ss, correctName).0, ss[0].fingerprint))
  {
    if ss[0].fingerprint in g.vertices {
      AddEachDuplicates(g, ss, correctName);
    } else {
      InsertNewStateRepeatedly(g, ss, correctName);
    }
  }

  lemma InsertNewStateRepeatedly(g: Graph, ss: seq<StateVertex>, correctName: bool)
    requires |ss| >= 1 && ss[0].fingerprint !in g.vertices
    requires forall i :: 0 <= i < |ss| ==> SameState(ss[i], ss[0])
    ensures AddEach(g, ss, correctName).0 == AddState(g, ss[0], correctName).graph
    ensures AddEach(g, ss, correctName).1[0] == None
    ensures forall i :: 1 <= i < |ss| ==>
              AddEach(g, ss, correctName).1[i]
              == Some(StateOf(AddState(g, ss[0], correctName).graph, ss[0].fingerprint))
  {
    var fp := ss[0].fingerprint;
    var first := AddState(g, ss[0], correctName);
    var g1 := first.graph;
    var tail := ss[1..];
    assert forall i :: 0 <= i < |tail| ==> tail[i].fingerprint == fp;
    AddEachDuplicates(g1, tail, correctName);
    var rest := AddEach(g1, tail, correctName);
    assert AddEach(g, ss, correctName) == (rest.0, [first.clone] + rest.1);
    forall i | 1 <= i < |ss|
      ensures AddEach(g, ss, correctName).1[i] == Some(StateOf(g1, fp))
    {
      assert AddEach(g, ss, correctName).1[i] == rest.1[i - 1];
      assert rest.1[i - 1] == Some(StateOf(g1, tail[i - 1].fingerprint));
    }
  }

  /**
   A successful new edge from `s` to `t` adds `t` to the successors of `s` and changes
   the successors of no other state.
   */
  lemma SuccessorsAfterAddEdge(g: Graph, source: StateVertex, target: StateVertex, clickable: Eventable, x: Fingerprint)
    requires Valid(g)
    requires AddEdge(g, source, target, clickable).Success?
    requires AddEdge(g, source, target, clickable).value.added
    ensures var h := AddEdge(g, source, target, clickable).value.graph;
      Successors(h, x) == Successors(g, x) + (if x == source.fingerprint then {target.fingerprint} else {})
  {
    var h := AddEdge(g, source, target, clickable).value.graph;
    forall t | t in Successors(h, x)
      ensures t in Successors(g, x) + (if x == source.fingerprint then {target.fingerprint} else {})
    {
      var c :| c in h.edges && h.edges[c] == Endpoints(x, t);
      if c != clickable {
        assert c in g.edges && g.edges[c] == Endpoints(x, t);
      }
    }
    forall t | t in Successors(g, x) ensures t in Successors(h, x) {
      var c :| c in g.edges && g.edges[c] == Endpoints(x, t);
      assert h.edges[c] == Endpoints(x, t);
    }
    if x == source.fingerprint {
      assert h.edges[clickable] == Endpoints(x, target.fingerprint);
      assert target.fingerprint in Successors(h, x);
    }
  }

  /**
   Two distinct clickables between the same two states are both added; both leave the
   source, and the target appears once among the source's successors.
   */
  lemma ParallelEdges(g: Graph, a: StateVertex, b: StateVertex, c1: Eventable, c2: Eventable)
    requires Valid(g)
    requires a.fingerprint in g.vertices && b.fingerprint in g.vertices && a.fingerprint != b.fingerprint
    requires c1 != c2 && c1 !in g.edges && c2 !in g.edges
    ensures AddEdge(g, a, b, c1).Success? && AddEdge(g, a, b, c1).value.added
    ensures var g1 := AddEdge(g, a, b, c1).value.graph;
      && AddEdge(g1, a, b, c2).Success? && AddEdge(g1, a, b, c2).value.added
      && var h := AddEdge(g1, a, b, c2).value.graph;
         && OutgoingClickables(h, a).Success?
         && {c1, c2} <= OutgoingClickables(h, a).value
         && Successors(h, a.fingerprint) == Successors(g, a.fingerprint) + {b.fingerprint}
  {
    var g1 := AddEdge(g, a, b, c1).value.graph;
    SuccessorsAfterAddEdge(g, a, b, c1, a.fingerprint);
    SuccessorsAfterAddEdge(g1, a, b, c2, a.fingerprint);
  }

  /** Adding the same clickable between the same states a second time adds nothing. */
  lemma RepeatedEdge(g: Graph, a: StateVertex, b: StateVertex, c: Eventable)
    requires Valid(g)
    requires AddEdge(g, a, b, c).Success?
    ensures var h := AddEdge(g, a, b, c).value.graph;
      && AddEdge(h, a, b, c) == Success(AddEdgeResult(h, false))
      && |AllEdges(h)| == |AllEdges(g)| + (if AddEdge(g, a, b, c).value.added then 1 else 0)
  {
    var r := AddEdge(g, a, b, c).value;
    if r.added {
      assert AllEdges(r.graph) == AllEdges(g) + {c};
    }
  }

  /** The reachability query does not depend on the order of its arguments. */
  lemma CanGoToSymmetric(g: Graph, a: StateVertex, b: StateVertex)
    ensures CanGoTo(g, a, b) <==> CanGoTo(g, b, a)
  {
  }

  /** `CanGoTo` holds exactly when either state is a successor of the other. */
  lemma CanGoToIffSuccessor(g: Graph, a: StateVertex, b: StateVertex)
    requires Valid(g)
    ensures CanGoTo(g, a, b) <==>
              b.fingerprint in Successors(g, a.fingerprint) || a.fingerprint in Successors(g, b.fingerprint)
  {
    if ContainsEdge(g, a.fingerprint, b.fingerprint) {
      var c :| c in g.edges && g.edges[c] == Endpoints(a.fingerprint, b.fingerprint);
      assert b.fingerprint in g.vertices;
    }
    if ContainsEdge(g, b.fingerprint, a.fingerprint) {
      var c :| c in g.edges && g.edges[c] == Endpoints(b.fingerprint, a.fingerprint);
      assert a.fingerprint in g.vertices;
    }
  }

  /**
   With a single edge from `a` to a different state `b`, both directions of `CanGoTo` hold,
   while `b` has no outgoing state.
   */
  lemma SingleEdgeReachability(g: Graph, a: StateVertex, b: StateVertex, c: Eventable)
    requires Valid(g)
    requires g.edges == map[c := Endpoints(a.fingerprint, b.fingerprint)]
    requires a.fingerprint != b.fingerprint
    ensures CanGoTo(g, a, b) && CanGoTo(g, b, a)
    ensures Successors(g, b.fingerprint) == {}
    ensures Successors(g, a.fingerprint) == {b.fingerprint}
  {
    assert g.edges[c] == Endpoints(a.fingerprint, b.fingerprint);
    assert b.fingerprint in Successors(g, a.fingerprint);
  }

  /**
   For every graph whose only edge is a loop at A, A can go to itself and is its own only
   successor, so the deep-state walk from A reports A: its one outgoing name is its own.
   */
  lemma SingleLoopReachability(g: Graph, a: StateVertex, c: Eventable)
    requires Valid(g)
    requires g.edges == map[c := Endpoints(a.fingerprint, a.fingerprint)]
    ensures CanGoTo(g, a, a)
    ensures Successors(g, a.fingerprint) == {a.fingerprint}
    ensures forall v :: v in g.vertices && v != a.fingerprint ==> Successors(g, v) == {}
  {
    assert g.edges[c] == Endpoints(a.fingerprint, a.fingerprint);
    assert a.fingerprint in Successors(g, a.fingerprint);
  }

  /**
   A clickable leaves `s` and enters `t` exactly when it is one of the edges from `s`
   to `t`, and then its target is `t`.
   */
  lemma EdgeQueriesAgree(g: Graph, s: StateVertex, t: StateVertex, c: Eventable)
    requires Valid(g)
    requires s.fingerprint in g.vertices && t.fingerprint in g.vertices
    ensures c in OutgoingClickables(g, s).value && c in IncomingClickables(g, t).value
            <==> c in AllEdgesBetween(g, s.fingerprint, t.fingerprint)
    ensures c in OutgoingClickables(g, s).value ==>
              TargetState(g, c).Some? && TargetState(g, c).value.fingerprint in Successors(g, s.fingerprint)
  {
    if c in OutgoingClickables(g, s).value {
      assert ContainsEdge(g, s.fingerprint, g.edges[c].target);
    }
  }

  /** The targets of a set of edges are no more numerous than the edges. */
  lemma {:induction false} TargetsAtMostEdges(g: Graph, cs: set<Eventable>)
    requires cs <= g.edges.Keys
    ensures |set c | c in cs :: g.edges[c].target| <= |cs|
    decreases cs
  {
    if cs != {} {
      var c :| c in cs;
      TargetsAtMostEdges(g, cs - {c});
      assert (set d | d in cs :: g.edges[d].target)
          == (set d | d in cs - {c} :: g.edges[d].target) + {g.edges[c].target};
    }
  }

  /** Parallel edges collapse: a state has no more successors than outgoing clickables. */
  lemma SuccessorsAtMostOutgoing(g: Graph, s: StateVertex)
    requires Valid(g)
    requires s.fingerprint in g.vertices
    ensures |Successors(g, s.fingerprint)| <= |OutgoingClickables(g, s).value|
  {
    var out := OutgoingClickables(g, s).value;
    TargetsAtMostEdges(g, out);
    assert Successors(g, s.fingerprint) == set c | c in out :: g.edges[c].target by {
      forall t | t in Successors(g, s.fingerprint) ensures t in set c | c in out :: g.edges[c].target {
        var c :| c in g.edges && g.edges[c] == Endpoints(s.fingerprint, t);
        assert c in out;
      }
      forall c | c in out ensures g.edges[c].target in Successors(g, s.fingerprint) {
        assert ContainsEdge(g, s.fingerprint, g.edges[c].target);
      }
    }
  }

  /**
   The naming discipline: the initial state is named `index`, every other state carries
   a generated name whose id is below the number of states, and no two states share a name.
   */
  predicate WellNamed(g: Graph) {
    && g.initial in g.vertices
    && g.vertices[g.initial].name == IndexName
    && (forall fp :: fp in g.vertices && fp != g.initial ==>
          NameIndex(g.vertices[fp].name).Some? && NameIndex(g.vertices[fp].name).value < |g.vertices|)
    && UniqueNames(g)
  }

  /** A graph built from a state named `index` is well named. */
  lemma NewIsWellNamed(initialState: StateVertex)
    requires initialState.name == IndexName
    ensures WellNamed(New(initialState))
  {
    var g := New(initialState);
    assert g.vertices.Keys == {initialState.fingerprint};
  }

  /**
   Inserting with renaming a state not named `index` keeps the names unique: the new
   name's id is the old number of states, above every id already in use.
   */
  lemma AddStateKeepsNamesUnique(g: Graph, s: StateVertex)
    requires WellNamed(g)
    requires s.name != IndexName
    ensures WellNamed(AddState(g, s, true).graph)
  {
    if s.fingerprint !in g.vertices {
      var h := AddState(g, s, true).graph;
      var n := h.vertices[s.fingerprint].name;
      assert NameIndex(n) == Some(|g.vertices|);
      IndexNameHasNoIndex();
      assert h.initial == g.initial && |h.vertices| == |g.vertices| + 1;
      forall fp | fp in h.vertices && fp != s.fingerprint
        ensures fp in g.vertices && h.vertices[fp] == g.vertices[fp]
        ensures h.vertices[fp].name != n
      {
        assert h.vertices[fp] == g.vertices[fp];
      }
      forall f1, f2 | f1 in h.vertices && f2 in h.vertices && f1 != f2
        ensures h.vertices[f1].name != h.vertices[f2].name
      {
        if f1 != s.fingerprint && f2 != s.fingerprint {
          assert g.vertices[f1].name != g.vertices[f2].name;
        }
      }
    }
  }

  /** The calls that respect the naming discipline. */
  predicate KeepsNaming(op: Op) {
    op.InsertState? ==> op.correctName && op.state.name != IndexName
  }

  /**
   A graph built from the `index` state and changed only by renaming insertions of
   states not named `index`, by edges and by issued names never holds two states with one name.
   */
  lemma {:induction false} RunKeepsNamesUnique(g: Graph, ops: seq<Op>)
    requires WellNamed(g)
    requires forall i :: 0 <= i < |ops| ==> KeepsNaming(ops[i])
    ensures WellNamed(Run(g, ops))
    decreases |ops|
  {
    if ops != [] {
      var g1 := Apply(g, ops[0]);
      assert WellNamed(g1) by {
        match ops[0]
        case InsertState(s, c) => AddStateKeepsNamesUnique(g, s);
        case InsertEdge(s, t, c) => assert g1.vertices == g.vertices;
        case IssueStateName => assert g1.vertices == g.vertices;
      }
      RunKeepsNamesUnique(g1, ops[1..]);
    }
  }

  /**
   The two naming schemes draw on different counts: the name `GetNewStateName` issues on a
   fresh graph is the very name the next renaming insertion gives a new exploratory state.
   */
  lemma IssuedNameMayRepeat(initialState: StateVertex, s: StateVertex)
    requires s.fingerprint != initialState.fingerprint && s.name != IndexName && !s.guided
    ensures var (g1, issued) := GetNewStateName(New(initialState));
      && g1.stateCounter == 1
      && AddState(g1, s, true).graph.vertices[s.fingerprint].name == issued
  {
    var g := New(initialState);
    assert |g.vertices| == 1;
  }
}

=== FILE: Results.dfy ===
/** Small failure-compatible wrappers shared by the state-flow graph modules. */
module Results {

  /** `None` stands for a `null` that the Java program returns. */
  datatype Option<+T> = None | Some(value: T)

  /** `Failure` stands for an exception the Java program, or the graph library it calls, throws. */
  datatype Result<+R, +E> = Success(value: R) | Failure(error: E)
}

=== FILE: StateFlowGraph.dfy ===
/**
 The state-flow graph of a crawl: a directed multigraph whose vertices are application
 states and whose edges are clickables (events).  A state is identified by the
 fingerprint of its content, not by its name; a clickable is identified by its own value
 and is attached to exactly one (source, target) pair, so several distinct clickables may
 join the same two states.

 Every operation is one sequential step on an immutable graph value; an insertion returns
 the new graph together with what the Java `StateFlowGraph` method returns.
 */
module StateFlowGraph {
  import opened Results
  import opened StateNames

  /** The content fingerprint that decides state equality. */
  type Fingerprint = string

  /** A state as a caller holds it. Two states are the same vertex iff `SameState`. */
  datatype StateVertex = StateVertex(name: string, fingerprint: Fingerprint, guided: bool)

  /** A clickable: an event type and the element it was fired on. */
  datatype Eventable = Eventable(eventType: string, identification: string)

  /** What the graph stores about a vertex besides its fingerprint. */
  datatype VertexInfo = VertexInfo(name: string, guided: bool)

  datatype Endpoints = Endpoints(source: Fingerprint, target: Fingerprint)

  datatype Graph = Graph(
    vertices: map<Fingerprint, VertexInfo>,
    edges: map<Eventable, Endpoints>,
    stateCounter: nat,
    initial: Fingerprint)

  /** The graph library's IllegalArgumentException, by cause. */
  datatype GraphError = NoSuchVertex

  datatype AddStateResult = AddStateResult(graph: Graph, clone: Option<StateVertex>)

  datatype AddEdgeResult = AddEdgeResult(graph: Graph, added: bool)

  /** `StateVertex.equals` in the Java program: equal content, whatever the names. */
  predicate SameState(a: StateVertex, b: StateVertex) {
    a.fingerprint == b.fingerprint
  }

  /**
   The representation invariant every operation keeps: the initial state is a vertex,
   and every edge joins two vertices of the graph (a loop is allowed).
   */
  predicate Valid(g: Graph) {
    && g.initial in g.vertices
    && forall c :: c in g.edges ==>
         && g.edges[c].source in g.vertices
         && g.edges[c].target in g.vertices
  }

  /** No two vertices carry the same name. */
  predicate UniqueNames(g: Graph) {
    forall f1, f2 :: f1 in g.vertices && f2 in g.vertices && f1 != f2 ==>
      g.vertices[f1].name != g.vertices[f2].name
  }

  /** The stored copy of the vertex with fingerprint `fp`. */
  function StateOf(g: Graph, fp: Fingerprint): (v: StateVertex)
    requires fp in g.vertices
    ensures v.fingerprint == fp
  {
    StateVertex(g.vertices[fp].name, fp, g.vertices[fp].guided)
  }

  /** The graph holding only `initialState`, with no edges and the counter at zero. */
  function New(initialState: StateVertex): (g: Graph)
    ensures Valid(g)
    ensures AllStates(g) == {initialState}
    ensures AllEdges(g) == {}
    ensures g.stateCounter == 0
    ensures forall s :: IsInitialState(g, s) <==> SameState(s, initialState)
  {
    var g := Graph(map[initialState.fingerprint := VertexInfo(initialState.name, initialState.guided)],
                   map[], 0, initialState.fingerprint);
    assert StateOf(g, initialState.fingerprint) == initialState;
    g
  }

  /** Whether `s` is (equal to) the state the graph was built from. */
  predicate IsInitialState(g: Graph, s: StateVertex): (r: bool)
    ensures g.initial in g.vertices ==> (r <==> SameState(s, StateOf(g, g.initial)))
    ensures Valid(g) ==> (r ==> GetStateInGraph(g, s) == Some(StateOf(g, g.initial)))
  {
    s.fingerprint == g.initial
  }

  /** The stored copies of all vertices. */
  function AllStates(g: Graph): (r: set<StateVertex>)
    ensures forall v :: v in r <==> v.fingerprint in g.vertices && v == StateOf(g, v.fingerprint)
    ensures |r| == |g.vertices|
  {
    StatesOfCardinality(g, g.vertices.Keys);
    set fp | fp in g.vertices :: StateOf(g, fp)
  }

  /** Distinct fingerprints give distinct stored states, so the image has the keys' size. */
  lemma {:induction false} StatesOfCardinality(g: Graph, keys: set<Fingerprint>)
    requires keys <= g.vertices.Keys
    ensures |set fp | fp in keys :: StateOf(g, fp)| == |keys|
    decreases keys
  {
    if keys != {} {
      var k :| k in keys;
      var rest := keys - {k};
      StatesOfCardinality(g, rest);
      var image := set fp | fp in rest :: StateOf(g, fp);
      assert (set fp | fp in keys :: StateOf(g, fp)) == image + {StateOf(g, k)};
      assert StateOf(g, k) !in image;
    }
  }

  /** All clickables of the graph. */
  function AllEdges(g: Graph): (r: set<Eventable>)
    ensures forall c :: c in r <==> c in g.edges
  {
    g.edges.Keys
  }

  /** The stored copy equal to `s`, or `None` when no vertex is equal to it. */
  function GetStateInGraph(g: Graph, s: StateVertex): (r: Option<StateVertex>)
    ensures r.Some? <==> exists v :: v in AllStates(g) && SameState(v, s)
    ensures r.Some? ==> r.value in AllStates(g) && SameState(r.value, s)
    ensures forall v :: v in AllStates(g) && SameState(v, s) ==> r == Some(v)
  {
    if s.fingerprint in g.vertices then
      assert StateOf(g, s.fingerprint) in AllStates(g);
      Some(StateOf(g, s.fingerprint))
    else
      None
  }

  /**
   Renames the freshly inserted vertex `fp` after the number of states other than the
   initial one, unless it carries the reserved initial-state name.
   */
  function CorrectStateName(g: Graph, fp: Fingerprint): (r: Graph)
    requires fp in g.vertices
    ensures r.vertices.Keys == g.vertices.Keys
    ensures r.edges == g.edges && r.stateCounter == g.stateCounter && r.initial == g.initial
    ensures forall f :: f in g.vertices && f != fp ==> r.vertices[f] == g.vertices[f]
    ensures r.vertices[fp].guided == g.vertices[fp].guided
    ensures g.vertices[fp].name == IndexName ==> r.vertices[fp] == g.vertices[fp]
    ensures g.vertices[fp].name != IndexName ==>
              r.vertices[fp].name == MakeStateName(|g.vertices| - 1, g.vertices[fp].guided)
  {
    var info := g.vertices[fp];
    var totalNumberOfStates := |AllStates(g)| - 1;
    var correctedName := MakeStateName(totalNumberOfStates, info.guided);
    if info.name != IndexName && info.name != correctedName then
      g.(vertices := g.vertices[fp := info.(name := correctedName)])
    else
      g
  }

  /**
   Inserts `s` unless an equal vertex is present.  A duplicate leaves the graph as it was
   and yields the stored copy; a new vertex bumps the counter, is renamed when
   `correctName` holds, and yields `None`.
   */
  function AddState(g: Graph, s: StateVertex, correctName: bool): (r: AddStateResult)
    ensures s.fingerprint in g.vertices ==>
              r.graph == g && r.clone == Some(StateOf(g, s.fingerprint))
    ensures s.fingerprint !in g.vertices ==>
              && r.clone == None
              && r.graph.vertices.Keys == g.vertices.Keys + {s.fingerprint}
              && |r.graph.vertices| == |g.vertices| + 1
              && (forall fp :: fp in g.vertices ==> r.graph.vertices[fp] == g.vertices[fp])
              && r.graph.edges == g.edges
              && r.graph.stateCounter == g.stateCounter + 1
              && r.graph.initial == g.initial
              && r.graph.vertices[s.fingerprint].guided == s.guided
    ensures s.fingerprint !in g.vertices && correctName && s.name != IndexName ==>
              r.graph.vertices[s.fingerprint].name == MakeStateName(|r.graph.vertices| - 1, s.guided)
    ensures s.fingerprint !in g.vertices && (!correctName || s.name == IndexName) ==>
              r.graph.vertices[s.fingerprint].name == s.name
    ensures Valid(g) ==> Valid(r.graph)
  {
    if s.fingerprint in g.vertices then
      AddStateResult(g, GetStateInGraph(g, s))
    else
      var added := g.(vertices := g.vertices[s.fingerprint := VertexInfo(s.name, s.guided)],
                      stateCounter := g.stateCounter + 1);
      assert added.vertices.Keys == g.vertices.Keys + {s.fingerprint};
      AddStateResult(if correctName then CorrectStateName(added, s.fingerprint) else added, None)
  }

  /** `AddState` with renaming switched on, the one-argument overload. */
  function AddStateCorrectingName(g: Graph, s: StateVertex): (r: AddStateResult)
    ensures r.clone.None? <==> s.fingerprint !in g.vertices
    ensures s.fingerprint in r.graph.vertices
    ensures s.fingerprint !in g.vertices && s.name != IndexName ==>
              NameIndex(r.graph.vertices[s.fingerprint].name) == Some(|g.vertices|)
  {
    AddState(g, s, true)
  }

  /** Issues a fresh exploratory name from the counter, which it bumps. */
  function GetNewStateName(g: Graph): (r: (Graph, string))
    ensures r.0 == g.(stateCounter := g.stateCounter + 1)
    ensures NameIndex(r.1) == Some(r.0.stateCounter)
    ensures r.1[0] == 's'
  {
    var g' := g.(stateCounter := g.stateCounter + 1);
    (g', MakeStateName(g'.stateCounter, false))
  }

  /** Whether some clickable leads from `s` to `t`. */
  predicate ContainsEdge(g: Graph, s: Fingerprint, t: Fingerprint) {
    exists c :: c in g.edges && g.edges[c] == Endpoints(s, t)
  }

  /** The clickables leading from `s` to `t`. */
  function AllEdgesBetween(g: Graph, s: Fingerprint, t: Fingerprint): (r: set<Eventable>)
    ensures forall c :: c in r <==> c in g.edges && g.edges[c] == Endpoints(s, t)
    ensures r != {} <==> ContainsEdge(g, s, t)
  {
    set c | c in g.edges && g.edges[c] == Endpoints(s, t)
  }

  /**
   Adds `clickable` from `source` to `target` unless it is already in the graph.
   The graph refuses an endpoint that is not a vertex; an edge from a vertex to itself is a loop
   like any other edge.
   */
  function AddEdge(g: Graph, source: StateVertex, target: StateVertex, clickable: Eventable)
    : (r: Result<AddEdgeResult, GraphError>)
    ensures clickable in AllEdgesBetween(g, source.fingerprint, target.fingerprint) ==>
              r == Success(AddEdgeResult(g, false))
    ensures clickable in g.edges ==> r == Success(AddEdgeResult(g, false))
    ensures r == Failure(NoSuchVertex) <==>
              clickable !in g.edges && (source.fingerprint !in g.vertices || target.fingerprint !in g.vertices)
    ensures r.Success? && r.value.added <==>
              && clickable !in g.edges
              && source.fingerprint in g.vertices && target.fingerprint in g.vertices
    ensures r.Success? && r.value.added ==>
              && r.value.graph.vertices == g.vertices
              && r.value.graph.stateCounter == g.stateCounter
              && r.value.graph.initial == g.initial
              && r.value.graph.edges.Keys == g.edges.Keys + {clickable}
              && (forall c :: c in g.edges ==> r.value.graph.edges[c] == g.edges[c])
              && r.value.graph.edges[clickable] == Endpoints(source.fingerprint, target.fingerprint)
              && AllEdgesBetween(r.value.graph, source.fingerprint, target.fingerprint)
                 == AllEdgesBetween(g, source.fingerprint, target.fingerprint) + {clickable}
    ensures r.Success? && !r.value.added ==> r.value.graph == g
    ensures Valid(g) && r.Success? ==> Valid(r.value.graph)
  {
    var s, t := source.fingerprint, target.fingerprint;
    if ContainsEdge(g, s, t) && clickable in AllEdgesBetween(g, s, t) then
      Success(AddEdgeResult(g, false))
    else if clickable in g.edges then
      // the graph already holds an equal edge, between other endpoints
      Success(AddEdgeResult(g, false))
    else if s !in g.vertices || t !in g.vertices then
      Failure(NoSuchVertex)
    else
      var g' := g.(edges := g.edges[clickable := Endpoints(s, t)]);
      assert AllEdgesBetween(g', s, t) == AllEdgesBetween(g, s, t) + {clickable};
      Success(AddEdgeResult(g', true))
  }

  /** The clickables leaving `s`; the graph refuses a state that is not a vertex. */
  function OutgoingClickables(g: Graph, s: StateVertex): (r: Result<set<Eventable>, GraphError>)
    ensures r.Failure? <==> s.fingerprint !in g.vertices
    ensures r.Failure? ==> r.error == NoSuchVertex
    ensures r.Success? ==> forall c :: c in r.value <==> c in g.edges && g.edges[c].source == s.fingerprint
  {
    if s.fingerprint !in g.vertices then Failure(NoSuchVertex)
    else Success(set c | c in g.edges && g.edges[c].source == s.fingerprint)
  }

  /** The clickables entering `s`; the graph refuses a state that is not a vertex. */
  function IncomingClickables(g: Graph, s: StateVertex): (r: Result<set<Eventable>, GraphError>)
    ensures r.Failure? <==> s.fingerprint !in g.vertices
    ensures r.Failure? ==> r.error == NoSuchVertex
    ensures r.Success? ==> forall c :: c in r.value <==> c in g.edges && g.edges[c].target == s.fingerprint
  {
    if s.fingerprint !in g.vertices then Failure(NoSuchVertex)
    else Success(set c | c in g.edges && g.edges[c].target == s.fingerprint)
  }

  /** The stored state `clickable` leads to, or `None` for a clickable not in the graph. */
  function TargetState(g: Graph, clickable: Eventable): (r: Option<StateVertex>)
    requires Valid(g)
    ensures r.Some? <==> clickable in g.edges
    ensures r.Some? ==> r.value in AllStates(g) && r.value.fingerprint == g.edges[clickable].target
  {
    if clickable in g.edges then Some(StateOf(g, g.edges[clickable].target)) else None
  }

  /**
   The fingerprints one edge away from `fp`: the reference definition the outgoing-state
   query is checked against.
   */
  function Successors(g: Graph, fp: Fingerprint): set<Fingerprint> {
    set t | t in g.vertices && ContainsEdge(g, fp, t)
  }

  /**
   The stored states one edge away from `s`, collected edge by edge as the Java `getOutgoingStates` does;
   parallel edges to one target give that target once.
   */
  method GetOutgoingStates(g: Graph, s: StateVertex) returns (r: Result<set<StateVertex>, GraphError>)
    requires Valid(g)
    ensures r.Failure? <==> s.fingerprint !in g.vertices
    ensures r.Success? ==> r.value == set t | t in Successors(g, s.fingerprint) :: StateOf(g, t)
    ensures r.Success? ==> forall t :: t in Successors(g, s.fingerprint) ==> StateOf(g, t) in r.value
    ensures r.Success? ==> forall v :: v in r.value ==>
              v.fingerprint in Successors(g, s.fingerprint) && v == StateOf(g, v.fingerprint)
  {
    var out := OutgoingClickables(g, s);
    if out.Failure? {
      return Failure(out.error);
    }
    var result: set<StateVertex> := {};
    var rest := out.value;
    while rest != {}
      invariant rest <= out.value
      invariant forall v :: v in result <==>
                  exists c :: c in out.value - rest && v == StateOf(g, g.edges[c].target)
      decreases rest
    {
      var c :| c in rest;
      result := result + {StateOf(g, g.edges[c].target)};
      rest := rest - {c};
    }
    ghost var expected := set t | t in Successors(g, s.fingerprint) :: StateOf(g, t);
    forall v | v in result ensures v in expected {
      var c :| c in out.value && v == StateOf(g, g.edges[c].target);
      assert g.edges[c] == Endpoints(s.fingerprint, g.edges[c].target);
    }
    forall v | v in expected ensures v in result {
      var t :| t in Successors(g, s.fingerprint) && v == StateOf(g, t);
      var c :| c in g.edges && g.edges[c] == Endpoints(s.fingerprint, t);
      assert c in out.value - rest;
    }
    return Success(result);
  }

  /**
   Whether some edge joins `source` and `target` in either direction; the Java `canGoTo` asks
   both directions on purpose.
   */
  predicate CanGoTo(g: Graph, source: StateVertex, target: StateVertex): (r: bool)
    ensures r <==> AllEdgesBetween(g, source.fingerprint, target.fingerprint) != {}
                   || AllEdgesBetween(g, target.fingerprint, source.fingerprint) != {}
  {
    ContainsEdge(g, source.fingerprint, target.fingerprint)
    || ContainsEdge(g, target.fingerprint, source.fingerprint)
  }
}

=== FILE: StateNames.dfy ===
/**
 Names the graph gives to newly inserted states: `"state" + id` for states found by
 exploratory crawling and `"guided" + id` for guided ones, where `+ id` is Java's
 decimal rendering of an int.  `NameIndex` reads the id back out of such a name; it is
 the partner that shows two different ids never produce the same name.
 */
module StateNames {
  import opened Results

  /** The name the initial state carries; it is never replaced by a generated one. */
  const IndexName: string := "index"

  const StatePrefix: string := "state"
  const GuidedPrefix: string := "guided"

  predicate IsDigit(c: char) {
    '0' <= c <= '9'
  }

  predicate AllDigits(s: string) {
    forall i :: 0 <= i < |s| ==> IsDigit(s[i])
  }

  function DigitChar(d: nat): (c: char)
    requires d < 10
    ensures IsDigit(c)
  {
    ('0' as int + d) as char
  }

  function DigitValue(c: char): (d: nat)
    requires IsDigit(c)
    ensures d < 10
  {
    (c as int - '0' as int) as nat
  }

  /** Decimal rendering without leading zeros, as `"" + n` gives for a non-negative int. */
  function NatToString(n: nat): (s: string)
    ensures |s| >= 1 && AllDigits(s)
    ensures s[0] == '0' ==> n == 0
    ensures n < 10 <==> |s| == 1
    decreases n
  {
    if n < 10 then [DigitChar(n)] else NatToString(n / 10) + [DigitChar(n % 10)]
  }

  /** The value of a string of decimal digits (the inverse of `NatToString`). */
  function DigitsValue(s: string): nat
    requires AllDigits(s)
    decreases |s|
  {
    if s == [] then 0 else DigitsValue(s[..|s| - 1]) * 10 + DigitValue(s[|s| - 1])
  }

  /** Reading back the decimal rendering of `n` gives `n`. */
  lemma {:induction false} DigitsValueOfNatToString(n: nat)
    ensures DigitsValue(NatToString(n)) == n
    decreases n
  {
    var s := NatToString(n);
    if n < 10 {
      assert s[..|s| - 1] == [];
    } else {
      assert s[..|s| - 1] == NatToString(n / 10);
      DigitsValueOfNatToString(n / 10);
    }
  }

  /** Distinct numbers have distinct decimal renderings. */
  lemma NatToStringInjective(m: nat, n: nat)
    ensures NatToString(m) == NatToString(n) ==> m == n
  {
    DigitsValueOfNatToString(m);
    DigitsValueOfNatToString(n);
  }

  /** The id a generated name carries, or `None` for a name of any other shape. */
  function NameIndex(name: string): (r: Option<nat>)
  {
    if |name| > |GuidedPrefix| && name[..|GuidedPrefix|] == GuidedPrefix && AllDigits(name[|GuidedPrefix|..]) then
      Some(DigitsValue(name[|GuidedPrefix|..]))
    else if |name| > |StatePrefix| && name[..|StatePrefix|] == StatePrefix && AllDigits(name[|StatePrefix|..]) then
      Some(DigitsValue(name[|StatePrefix|..]))
    else
      None
  }

  /**
   The name for the state with the given id: the guided prefix for guided states,
   the plain state prefix otherwise.
   */
  function MakeStateName(id: nat, guided: bool): (name: string)
    ensures NameIndex(name) == Some(id)
    ensures name != IndexName
    ensures guided <==> name[0] == 'g'
  {
    var prefix := if guided then GuidedPrefix else StatePrefix;
    var name := prefix + NatToString(id);
    assert name[..|prefix|] == prefix && name[|prefix|..] == NatToString(id);
    DigitsValueOfNatToString(id);
    assert IndexName[0] == 'i';
    name
  }

  /** The reserved initial-state name carries no id. */
  lemma IndexNameHasNoIndex()
    ensures NameIndex(IndexName) == None
  {
  }

  /** Generated names are one-to-one in the id and the guided flag. */
  lemma MakeStateNameInjective(i: nat, g: bool, j: nat, h: bool)
    ensures MakeStateName(i, g) == MakeStateName(j, h) ==> i == j && g == h
  {
  }
}
